=== FILE: README.md ===
# AsyncTask, as a verified transition system

This project models the core of Android's `AsyncTask` (`android/os/AsyncTask.java`). The model covers three parts:

- the task lifecycle: the status, which only moves forward in the order PENDING, RUNNING, FINISHED; the `mCancelled` flag; and the `mTaskInvoked` flag;
- the delivery protocol: RESULT and PROGRESS messages posted to the owning thread's handler and routed to the task's hooks;
- the `SerialExecutor`, a FIFO deque with one `mActive` slot in front of the shared thread pool.

The model uses immutable records and one pure function per event. An interleaving of the threads that share a task becomes a sequence of events applied to a `Task`. An event is a step whose effect other threads can observe:

- the owning thread's calls: `executeOnExecutor` and the handler processing its next message;
- `cancel`, from any thread, in its two steps: setting `mCancelled` (line 434), then cancelling `mFuture` (line 435);
- the executor's thread running `mFuture`;
- the worker's steps through `mWorker.call`: set `mTaskInvoked`, publish progress, then either return (posting the RESULT) or throw;
- `FutureTask.run` recording the value `call` returned, after `call` has posted it.

Some Java steps are merged into single events, because no other thread can observe anything between their parts:

- `doInBackground` throwing is merged with `setException` and `done()`, since nothing is posted in between;
- each `synchronized` method of `SerialExecutor` is one event.

Everything the owning thread can observe is kept in logs. `posted` holds every message sent, with a read cursor `handled`. `hooks` holds every hook invoked.

Modules:

- `Wrappers`: `Option` (`None` is Java's `null`).
- `Counting`: `CountIf` over sequences.
- `TaskState`: `Status`, the future's state, the worker's phase, `Message`, `Hook`, `Fault`, the `Task` record, and the invariant `Valid`.
- `AsyncTask`: the transition for each event, `Apply` (one event), and `Replay` (a sequence of events).
- `Lifecycle`: status monotonicity, cancellation, the once-only execute, and rejected hand-offs.
- `Delivery`: which results reach the owning thread, which hook each one reaches, and what cancellation and failures suppress.
- `SerialExecutor`: `execute`, `scheduleNext` and the wrapper's `finally`, with FIFO and one-active-at-a-time proofs.

## External collaborators

`FutureTask` is not part of this model. `FutureState` abstracts it with the following rules:

- `cancel` succeeds only while the future has not completed, and the task may still be running at that point. This is the documented `Future.cancel` contract (`java/util/concurrent/Future.java:64-67`).
- `run` calls `call` only if the future has not completed.
- `set` and `setException` take effect only while the future has not completed.
- `done()` runs once, when the future leaves the not-completed state.

The last three rules are how `FutureTask` itself behaves. The `Future` interface does not document them.

Other collaborators are event parameters:

- Whether the executor accepts the hand-off is the `accepted` or `accept` flag.
- The value returned by `doInBackground`, or the fact that it throws, is carried by the `Return` and `Throw` events.

The handler's queue is the global `InternalHandler` queue restricted to one task's messages. It is the FIFO sequence `posted`.

Under both protocols, `RunFuture` (`FutureTask.run` entering `call`) and `MarkInvoked` (line 260 setting `mTaskInvoked`) are separate events. The window between them is where the finding below comes from.

`cancel` is two events, `SetCancelFlag` and `CancelFuture`, because other threads observe the gap between them: `publishProgress` and `finish` read the flag, and `doInBackground` may poll `isCancelled()` and return or throw early. `CancelFuture` is enabled once the flag is set. Several `cancel` calls may be under way at once, and setting the flag twice changes nothing, so any number of `CancelFuture` events may follow one `SetCancelFlag`. `AsyncTask.Cancel` is the whole call when no other thread steps in between; `AsyncTask.CancelIsTwoSteps` relates it to the two events.

Likewise, `Return` (line 266 posting the RESULT) and `Settle` (`FutureTask.run` recording the value and running `done()`) are separate events. Between them the RESULT is already posted but the future is still open. A `cancel` in that window still returns true, even after `onPostExecute` has run.

An event that cannot happen in the current state leaves the task unchanged. Examples: a worker step in the wrong phase, or a handler step with an empty queue.

## Behaviour of note

- A failure in `doInBackground` is rethrown by `done()` as a `RuntimeException` (lines 277-279). It is thrown on the thread that completes the future, which is the worker thread, not the owning thread. `WorkerThrow` raises `ComputationFailed`.
- The two result paths coordinate through `mTaskInvoked`, but not atomically. `call()` uses `set(true)` (line 260) and `postResultIfNotInvoked` uses `get()` (line 288). The model keeps this as the `AsWritten` protocol, and adds an atomic `getAndSet` on both paths as `Claimed` (see Findings).
- After a rejected hand-off, the task stays RUNNING (lines 537 and 542). `Lifecycle.RejectedTaskIsStranded` states this. The model does not change it.
- In `SerialExecutor.scheduleNext`, a rejection from the pool propagates after `mActive` is already set (lines 216-217). The rejected wrapper never runs, so its `finally` never schedules the next one, and the serial lane is stalled for good. `SerialExecutor.RejectedHandOffStallsLane` states this.
- `cancel` can return true after `onPostExecute` has already run, because `call()` posts its RESULT before `FutureTask` completes the future. `isCancelled()` then reports true, but `onCancelled` never fires. `Delivery.CancelSucceedsAfterPostExecute` shows this.
- A `cancel` whose flag is set while `doInBackground` runs, but whose future cancel comes after the future has completed, returns false. If `doInBackground` returned, the future keeps its value, yet the handler delivers the value to `onCancelled` (`Delivery.CancelFailsYetOnCancelled`). If it threw, `done()` rethrows the failure even though `isCancelled()` is already true (`Delivery.FailureRethrownAfterCancelFlag`).
- A task cancelled before `execute` goes from PENDING straight to FINISHED. `cancel` posts a null RESULT, the handler delivers it to `onCancelled(null)` without `onPreExecute` ever running, and a later `execute` fails as already executed (`Lifecycle.CancelledBeforeExecuteFinishes`).
- FINISHED is set at most once only when at most one RESULT is posted. That holds under `Claimed` (`Delivery.AtMostOneResult`). It does not hold under `AsWritten` (`Delivery.DoubleResultWitness`).

## Model

| member | source | states |
|---|---|---|
| AsyncTask.ExecuteOnExecutor | android/os/AsyncTask.java:523-545 | Fails with "already running" from RUNNING and "already executed" from FINISHED, leaving the task unchanged. From PENDING it sets RUNNING, runs onPreExecute, stores the params and hands off the work. It returns normally exactly when the executor accepted, and otherwise reports the rejection with the task already RUNNING. |
| AsyncTask.CancelFutureOf | android/os/AsyncTask.java:435 | mFuture.cancel returns true exactly when the future was not yet completed, and then leaves it cancelled. A null RESULT is posted exactly when the worker had not yet set mTaskInvoked; under the claimed protocol the flag is taken. A completed future leaves the task unchanged. |
| AsyncTask.Cancel | android/os/AsyncTask.java:433-436 | The whole call: the cancelled flag is always set. It returns true exactly when the future was not yet completed, and then the future is cancelled. A null RESULT is posted exactly when the future was not yet completed and the worker had not yet set mTaskInvoked. Status, hooks and the worker are untouched. |
| AsyncTask.CancelIsTwoSteps | android/os/AsyncTask.java:433-436 | The flag event only sets the flag, and following it with the future-cancel event gives exactly the whole call's task and answer. |
| AsyncTask.PostResultIfNotInvoked | android/os/AsyncTask.java:287-292 | Posts the result exactly when mTaskInvoked is unset. Under the claimed protocol it also takes the flag. Nothing else changes. |
| AsyncTask.Done | android/os/AsyncTask.java:270-284 | A normal or cancelled completion goes through postResultIfNotInvoked, with null for a cancellation. A failed computation is rethrown as ComputationFailed and posts nothing. |
| AsyncTask.RunFutureOf | android/os/AsyncTask.java:258-260 | The worker enters call only if the future has not completed. After a cancel it exits without running doInBackground. |
| AsyncTask.MarkInvokedOf | android/os/AsyncTask.java:260-264 | mTaskInvoked is set before doInBackground runs. Under the claimed protocol, a worker that finds the flag already taken exits without computing. |
| AsyncTask.PublishProgress | android/os/AsyncTask.java:572-577 | Appends one PROGRESS message with the given values when not cancelled. Does nothing otherwise. |
| AsyncTask.WorkerReturn | android/os/AsyncTask.java:264-266 | call() posts a RESULT carrying doInBackground's value and returns the value. The future is left as it was, so it is still open unless it was cancelled. |
| AsyncTask.SetFuture | android/os/AsyncTask.java:270-274 | After call() returns, the future records the returned value only if it is still open. done() then posts nothing, because mTaskInvoked is already set. A future that was already cancelled stays cancelled. |
| AsyncTask.WorkerThrow | android/os/AsyncTask.java:272-279 | A throwing doInBackground posts nothing. If the future was still open, done() rethrows the failure. |
| AsyncTask.Finish | android/os/AsyncTask.java:579-586 | Adds exactly one terminal hook and sets FINISHED. The hook is onCancelled if and only if the task is cancelled, and otherwise onPostExecute, carrying the result. |
| AsyncTask.HandleMessage | android/os/AsyncTask.java:595-606 | Handles the oldest unhandled message. The new hook is that message's delivery. PROGRESS leaves the status alone and RESULT makes it FINISHED. |
| AsyncTask.Apply | android/os/AsyncTask.java:433-586 | Over every event: the status is written only forward (RUNNING at line 537, FINISHED at line 585). The cancelled flag is set only by cancel's first step (line 434) and never reset. The future settles at most once, and the message and hook logs only grow. |
| AsyncTask.CancelSilencesDeliveries | android/os/AsyncTask.java:572-586 | Once the task is cancelled, no event adds a PROGRESS message or an onPostExecute. While it is not cancelled, no event adds an onCancelled. |
| Lifecycle.InitValid | android/os/AsyncTask.java:191-194 | A new task (PENDING, flags clear, nothing posted) satisfies the reachable-state invariant. |
| Lifecycle.ReplayKeepsValid | android/os/AsyncTask.java:258-300 | Every interleaving, under either protocol, keeps the invariant. It covers how the status, flags and worker phase relate, who may have posted a result, FINISHED if and only if a result was handled, and in-order delivery. |
| Lifecycle.WorkerStartsAfterPreExecute | android/os/AsyncTask.java:537-542 | The worker starts only after the task is RUNNING, onPreExecute has run, the params are stored and the hand-off was accepted. |
| Lifecycle.StatusNeverRegresses | android/os/AsyncTask.java:222-224 | Over any sequence of events the status rank never decreases. |
| Lifecycle.CancelIsSticky | android/os/AsyncTask.java:410-412 | Once isCancelled is true, it stays true after any sequence of events. |
| Lifecycle.CancelIdempotent | android/os/AsyncTask.java:433-436 | A second cancel leaves the task exactly as the first left it, and returns false. |
| Lifecycle.ExecuteSucceedsAtMostOnce | android/os/AsyncTask.java:525-535 | After an execute that passed the status check, every later execute fails with "already running" or "already executed" and changes nothing, whatever happened in between. |
| Lifecycle.QuiescentStaysPut | android/os/AsyncTask.java:433-586 | A task that is cancelled, executed, settled, with its worker gone and every message handled, is left exactly as it is by every sequence of events. |
| Lifecycle.CancelledBeforeExecuteFinishes | android/os/AsyncTask.java:433-436 | Under either protocol, cancelling a new task and handling its message sets FINISHED with onCancelled(null) as the only hook, and a later execute fails as already executed and changes nothing. |
| Lifecycle.RejectedTaskIsStranded | android/os/AsyncTask.java:537-542 | A rejected hand-off is reported with the task already RUNNING. Its worker never starts. Every later execute fails. It leaves RUNNING only if it is cancelled. |
| Delivery.AtMostOneResult | android/os/AsyncTask.java:287-292 | With both result paths claiming mTaskInvoked, every interleaving posts at most one RESULT and fires at most one terminal hook. The task is FINISHED if and only if exactly one terminal hook fired. |
| Delivery.ProgressPrecedesResult | android/os/AsyncTask.java:572-577 | With both paths claiming the flag, a RESULT is always the last message the task posts. |
| Delivery.ProgressNeverFollowsResult | android/os/AsyncTask.java:260-292 | Under either protocol, including as written: no PROGRESS message is ever posted after a RESULT. A RESULT comes from a cancel, after which publishProgress posts nothing (line 573), or from call() after doInBackground has returned (line 266). |
| Delivery.DoubleResultWitness | android/os/AsyncTask.java:258-292 | As written: the sequence execute, enter call, cancel, set flag, return, future settles posts two RESULT messages, and the handler fires onCancelled twice. |
| Delivery.CancelSucceedsAfterPostExecute | android/os/AsyncTask.java:433-436 | Under either protocol, after a normal run in which the handler has already fired onPostExecute and set FINISHED, but before FutureTask has recorded the value, cancel returns true. By the end of the run the task is cancelled and its future cancelled, and no further message has been posted. From then on no event changes the task, so onCancelled never fires. |
| Delivery.CancelFailsYetOnCancelled | android/os/AsyncTask.java:433-436 | Under either protocol: cancel sets the flag while doInBackground runs, which returns r before the future is cancelled. The cancel then returns false and the future keeps r, yet the handler fires onCancelled(r) and sets FINISHED. |
| Delivery.FailureRethrownAfterCancelFlag | android/os/AsyncTask.java:270-284 | Under either protocol: after cancel has set the flag but before it cancels the future, a throwing doInBackground still has its failure rethrown by done() and posts nothing. The cancel then returns false. |
| Delivery.CancelBeforeRunPostsNullOnce | android/os/AsyncTask.java:280-292 | A cancel before the executor runs the future returns true and posts exactly one RESULT, carrying null. Afterwards doInBackground never runs and nothing more is posted, under either protocol. |
| Delivery.ThrowFiresNoTerminalHook | android/os/AsyncTask.java:272-279 | A doInBackground that throws while the future is open has its failure rethrown and posts nothing. After that no terminal hook ever fires and the task never reaches FINISHED. |
| Delivery.NoProgressAfterCancel | android/os/AsyncTask.java:572-577 | Once a task is cancelled, no sequence of events adds another PROGRESS message. |
| Delivery.CancelledNeverPostExecutes | android/os/AsyncTask.java:579-586 | Once a task is cancelled, onPostExecute never fires again. |
| Delivery.UncancelledNeverOnCancelled | android/os/AsyncTask.java:579-586 | Without a cancel setting the flag, the task stays uncancelled and onCancelled never fires. |
| Delivery.HandledInSendOrder | android/os/AsyncTask.java:595-606 | From construction, the i-th hook fired by the handler delivers the i-th posted message. PROGRESS goes to onProgressUpdate with the same values, and RESULT goes to onPostExecute or onCancelled with the same value. |
| SerialExecutor.ScheduleNext | android/os/AsyncTask.java:215-219 | With an empty deque mActive becomes null. Otherwise the head is polled into mActive and handed to the pool, or, on rejection, the rejection is reported with mActive already set. |
| SerialExecutor.Execute | android/os/AsyncTask.java:200-213 | The item goes to the tail. Nothing is scheduled while something is active. On an idle, empty lane the item becomes active and is handed to the pool, and the completion count is unchanged. |
| SerialExecutor.Complete | android/os/AsyncTask.java:201-208 | The wrapper's finally marks it completed. The deque's head, if any, is polled: it leaves the deque, becomes active and goes to the pool. With an empty deque, mActive becomes null. A rejection is reported exactly when a head existed and the pool refused it. |
| SerialExecutor.ReplayKeepsOrder | android/os/AsyncTask.java:196-219 | Across every interleaving of submissions and completions, at most one handed-off item is unfinished and it is mActive. No item waits while nothing is active. The items handed to the pool, then the stalled item if any, then the deque, together equal all submissions in order. |
| SerialExecutor.PoolFollowsSubmissionOrder | android/os/AsyncTask.java:196-219 | From an empty executor, the items handed to the pool are a prefix of the submissions in submission order, and at most one is running. |
| SerialExecutor.RejectedHandOffStallsLane | android/os/AsyncTask.java:215-219 | Once the pool rejects a hand-off, nothing further ever reaches the pool. mActive keeps the rejected item and every later submission waits in the deque. |
| SerialExecutor.CompletionsDrainLane | android/os/AsyncTask.java:201-212 | When the pool accepts every hand-off, one completion per queued item hands the whole deque to the pool in order and leaves the lane idle. |

## Left out

- The thread pool's construction and sizing (`CPU_COUNT`, `CORE_POOL_SIZE`, `MAXIMUM_POOL_SIZE`, the 128-slot work queue, the thread factory; lines 154-175): the pool is an external library. It is an accept-or-reject sink.
- Thread interruption (`mayInterruptIfRunning`), `Process.setThreadPriority` and `Binder.flushPendingCommands`: platform calls. `CancelFutureOf` and `Cancel` take the flag and ignore it.
- `get()` and `get(timeout)`, and the `InterruptedException` branch of `done()`: these are blocking waits. `done()` runs only after completion, so the branch is not reachable from the modelled events.
- `getHandler`, `Looper` and the shared `InternalHandler`: replaced by one FIFO message log per task.
- `execute(Params...)`, the static `execute(Runnable)` and `setDefaultExecutor`: each forwards to `executeOnExecutor` or to an executor's `execute` with the process-wide default executor. The executor is a parameter here.
- The link between a task and a particular executor: the task sees only whether `exec.execute` returned normally. The `SerialExecutor` is modelled on its own, over arbitrary items.
- `publishProgress` called outside `doInBackground`: the event is enabled only while the worker is computing, as the method's worker-thread contract requires.
- AsyncTask.ExecuteOnExecutor: `onPreExecute` is assumed to return normally. In the Java code, an `onPreExecute` that throws (line 539) propagates out of `executeOnExecutor` with the task already RUNNING (line 537), no params stored and no hand-off. That is a second way to strand a task, besides a rejected hand-off.
- AsyncTask.Finish: `onPostExecute` and `onCancelled` are assumed to return normally. In the Java code, one that throws (lines 581, 583) skips `mStatus = FINISHED` (line 585).
- The varargs arrays (the params stored at line 541, the progress values wrapped at line 575 and passed to `onProgressUpdate` at line 603) are immutable sequences here. In Java they are the caller's own arrays, so a change made to one after `execute` or `publishProgress` is seen by `doInBackground` or `onProgressUpdate`. That aliasing is not modelled. `Delivery.HandledInSendOrder`'s "the same values" holds only for arrays that nobody changes after handing them over.
- A `doInBackground` that returns null: `Return` always carries a value. A null RESULT comes only from the cancellation path.
- `android/os/HandlerThread.java` and the `java.util.concurrent` interfaces: thread bootstrap and interfaces with no logic.

## Findings

| source | as written | input that shows it | evidently intended | confidence | as-written member | corrected member |
|---|---|---|---|---|---|---|
| android/os/AsyncTask.java:260-292 | `call()` sets `mTaskInvoked` with a plain `set(true)` after `FutureTask.run` has already entered it. `done()` reads the flag with `get()` and posts a null result if it is unset. | execute; the executor enters `call`; `cancel(false)`; `call` sets the flag; `doInBackground` returns r; `FutureTask.run` finishes. Both `RESULT(null)` and `RESULT(r)` are posted, `onCancelled` fires twice and FINISHED is set twice. | exactly one terminal delivery per task ("There is only one result", line 599; each status set once, line 222), with the two paths settled by one atomic `getAndSet` | medium, not executed | Delivery.ProgressNeverFollowsResult | android/os/AsyncTask.java:260-292 | Under either protocol, including as written: no PROGRESS message is ever posted after a RESULT. A RESULT comes from a cancel, after which publishProgress posts nothing (line 573), or from call() after doInBackground has returned (line 266). |
| Delivery.DoubleResultWitness | Delivery.AtMostOneResult |

=== FILE: async_task.dfy ===
/** The AsyncTask protocol as one pure transition per event.

    Each thread interleaving of the Java class becomes a sequence of `Event`s
    applied to a `Task`: the owning thread's calls (executeOnExecutor,
    handleMessage, and cancel in its two steps: setting `mCancelled`, then
    cancelling `mFuture`), the executor running `mFuture`, and the worker's progress
    through `mWorker.call` (mark invoked, publish progress, return or throw)
    and FutureTask.run recording what `call` returned.
    The executor and doInBackground are not modelled; their outcomes (the
    executor accepts or rejects, doInBackground returns a value or throws)
    are parameters of the events. */
module AsyncTask {
  import opened Wrappers
  import opened Counting
  import opened TaskState

  /** How the two paths that may post the result coordinate on `mTaskInvoked`. */
  datatype Protocol =
    | AsWritten  // call() sets the flag; done() reads it, then posts
    | Claimed    // both paths claim it with getAndSet; only the winner posts

  /** What a call returns to (or throws at) its caller. */
  datatype Reply = Ok | Answer(value: bool) | Raise(fault: Fault)

  datatype Step<P, Pr, R> = Step(task: Task<P, Pr, R>, reply: Reply)

  datatype Event<P, Pr, R> =
    | Execute(params: seq<P>, accepted: bool)  // executeOnExecutor; `accepted`: exec.execute returned
    | SetCancelFlag                            // cancel(): mCancelled.set(true)
    | CancelFuture(mayInterrupt: bool)         // cancel(), next: mFuture.cancel(mayInterruptIfRunning)
    | RunFuture                                // the executor's thread calls mFuture.run()
    | MarkInvoked                              // call(): mTaskInvoked is set
    | Publish(values: seq<Pr>)                 // doInBackground calls publishProgress
    | Return(result: R)                        // doInBackground returns; call() posts and returns it
    | Settle                                   // FutureTask.run records call()'s value and runs done()
    | Throw                                    // doInBackground throws
    | HandleNext                               // the handler processes its next message

  /** getStatus() */
  function GetStatus<P, Pr, R>(t: Task<P, Pr, R>): Status {
    t.status
  }

  /** isCancelled() */
  function IsCancelled<P, Pr, R>(t: Task<P, Pr, R>): bool {
    t.cancelled
  }

  /** executeOnExecutor(exec, params): refuses a task that is not PENDING,
      otherwise marks it RUNNING, runs onPreExecute, stores the params and
      only then hands `mFuture` to the executor. A rejection propagates to
      the caller after the task is already RUNNING. */
  function ExecuteOnExecutor<P, Pr, R>(t: Task<P, Pr, R>, params: seq<P>, accepted: bool): (s: Step<P, Pr, R>)
    ensures s.reply.Raise? && s.reply.fault in {AlreadyRunning, AlreadyExecuted} <==> !t.status.Pending?
    ensures t.status.Running? ==> s == Step(t, Raise(AlreadyRunning))
    ensures t.status.Finished? ==> s == Step(t, Raise(AlreadyExecuted))
    ensures t.status.Pending? ==>
              && s.task.status.Running?
              && s.task.hooks == t.hooks + [OnPreExecute]
              && s.task.params == Some(params)
              && s.task.submitted == accepted
              && s.task.posted == t.posted && s.task.handled == t.handled
              && s.task.worker == t.worker && s.task.future == t.future
              && s.task.cancelled == t.cancelled && s.task.invoked == t.invoked
              && s.reply == (if accepted then Ok else Raise(Rejected))
  {
    match t.status
    case Running => Step(t, Raise(AlreadyRunning))
    case Finished => Step(t, Raise(AlreadyExecuted))
    case Pending =>
      var running := t.(status := Running);
      var prepared := running.(hooks := running.hooks + [OnPreExecute]);
      var stored := prepared.(params := Some(params));
      var handedOff := stored.(submitted := accepted);
      Step(handedOff, if accepted then Ok else Raise(Rejected))
  }

  /** postResult(result): sends MESSAGE_POST_RESULT to the handler. */
  function PostResult<P, Pr, R>(t: Task<P, Pr, R>, result: Option<R>): Task<P, Pr, R> {
    t.(posted := t.posted + [ResultMsg(result)])
  }

  /** postResultIfNotInvoked(result): posts only if the worker never set
      `mTaskInvoked`. Under `Claimed` the test also sets the flag, so that a
      worker entering later sees it taken. */
  function PostResultIfNotInvoked<P, Pr, R>(p: Protocol, t: Task<P, Pr, R>, result: Option<R>): (u: Task<P, Pr, R>)
    ensures u.posted == t.posted + (if t.invoked then [] else [ResultMsg(result)])
    ensures u.invoked == (t.invoked || p.Claimed?)
    ensures u == t.(posted := u.posted, invoked := u.invoked)
  {
    if t.invoked then t
    else
      var claimed := if p.Claimed? then t.(invoked := true) else t;
      PostResult(claimed, result)
  }

  /** mFuture.done(): runs once when the future leaves `New`. A normal
      result or a cancellation goes through postResultIfNotInvoked (null for
      a cancellation); a failure is rethrown as a RuntimeException. */
  function Done<P, Pr, R>(p: Protocol, t: Task<P, Pr, R>): (s: Step<P, Pr, R>)
    requires !t.future.New?
    ensures s.reply == (if t.future.Failed? then Raise(ComputationFailed) else Ok)
    ensures t.future.Failed? ==> s.task == t
    ensures t.future.Cancelled? ==> s.task == PostResultIfNotInvoked(p, t, None)
    ensures t.future.Completed? ==> s.task == PostResultIfNotInvoked(p, t, Some(t.future.value))
  {
    match t.future
    case Completed(v) => Step(PostResultIfNotInvoked(p, t, Some(v)), Ok)
    case Cancelled => Step(PostResultIfNotInvoked(p, t, None), Ok)
    case Failed => Step(t, Raise(ComputationFailed))
  }

  /** The second step of cancel: mFuture.cancel(mayInterruptIfRunning)
      succeeds only while the future is not yet completed, and on success
      marks it cancelled and runs done(). Thread interruption is not
      modelled. */
  function CancelFutureOf<P, Pr, R>(p: Protocol, t: Task<P, Pr, R>, mayInterrupt: bool): (s: Step<P, Pr, R>)
    ensures s.reply == Answer(t.future.New?)
    ensures t.future.New? ==> s.task.future == Cancelled
    ensures !t.future.New? ==> s.task == t
    ensures s.task.posted == t.posted + (if t.future.New? && !t.invoked then [ResultMsg(None)] else [])
    ensures s.task.invoked == (t.invoked || (p.Claimed? && t.future.New?))
    ensures s.task == t.(future := s.task.future, posted := s.task.posted, invoked := s.task.invoked)
  {
    if t.future.New? then
      Step(Done(p, t.(future := Cancelled)).task, Answer(true))
    else
      Step(t, Answer(false))
  }

  /** cancel(mayInterruptIfRunning) run without another thread stepping in
      between its two steps: it always sets `mCancelled`, then cancels the
      future, which succeeds only while the future is not yet completed. */
  function Cancel<P, Pr, R>(p: Protocol, t: Task<P, Pr, R>, mayInterrupt: bool): (s: Step<P, Pr, R>)
    ensures s.task.cancelled
    ensures s.reply == Answer(t.future.New?)
    ensures !s.task.future.New?
    ensures t.future.New? ==> s.task.future == Cancelled
    ensures !t.future.New? ==> s.task == t.(cancelled := true)
    ensures s.task.posted == t.posted + (if t.future.New? && !t.invoked then [ResultMsg(None)] else [])
    ensures s.task.invoked == (t.invoked || (p.Claimed? && t.future.New?))
    ensures s.task.status == t.status && s.task.hooks == t.hooks && s.task.handled == t.handled
    ensures s.task.worker == t.worker && s.task.submitted == t.submitted && s.task.params == t.params
  {
    CancelFutureOf(p, t.(cancelled := true), mayInterrupt)
  }

  /** The whole cancel call is its two events in a row: setting the flag,
      then cancelling the future. */
  lemma CancelIsTwoSteps<P, Pr, R>(p: Protocol, t: Task<P, Pr, R>, mayInterrupt: bool)
    ensures var flagged := Apply(p, t, SetCancelFlag);
            && flagged == Step(t.(cancelled := true), Ok)
            && Apply(p, flagged.task, CancelFuture(mayInterrupt)) == Cancel(p, t, mayInterrupt)
  {
  }

  /** FutureTask.run() on the executor's thread: it enters `call` only if
      the future has not completed (in particular, not been cancelled). */
  function RunFutureOf<P, Pr, R>(t: Task<P, Pr, R>): (u: Task<P, Pr, R>)
    requires t.worker.Idle?
    ensures u.worker == (if t.future.New? then Entered else Exited)
    ensures u == t.(worker := u.worker)
  {
    if t.future.New? then t.(worker := Entered) else t.(worker := Exited)
  }

  /** The first statement of `mWorker.call`: mTaskInvoked.set(true), after
      which doInBackground runs. Under `Claimed` the worker uses getAndSet
      and, finding the flag already taken by done(), returns without
      running doInBackground or posting anything. */
  function MarkInvokedOf<P, Pr, R>(p: Protocol, t: Task<P, Pr, R>): (u: Task<P, Pr, R>)
    requires t.worker.Entered?
    ensures u.invoked
    ensures u.worker.Computing? <==> (p.AsWritten? || !t.invoked)
    ensures u.worker.Computing? || u.worker.Exited?
    ensures u == t.(invoked := true, worker := u.worker)
  {
    if p.Claimed? && t.invoked then t.(worker := Exited)
    else t.(invoked := true, worker := Computing)
  }

  /** publishProgress(values): posts MESSAGE_POST_PROGRESS unless cancelled. */
  function PublishProgress<P, Pr, R>(t: Task<P, Pr, R>, values: seq<Pr>): (u: Task<P, Pr, R>)
    ensures !t.cancelled ==> u == t.(posted := t.posted + [ProgressMsg(values)])
    ensures t.cancelled ==> u == t
  {
    if IsCancelled(t) then t
    else t.(posted := t.posted + [ProgressMsg(values)])
  }

  /** doInBackground returned `result`: call() posts it (line 266) and
      returns it to FutureTask.run. The future is not completed yet: a
      cancel that comes now still succeeds. */
  function WorkerReturn<P, Pr, R>(t: Task<P, Pr, R>, result: R): (u: Task<P, Pr, R>)
    requires t.worker.Computing? && t.invoked
    ensures u.posted == t.posted + [ResultMsg(Some(result))]
    ensures u.worker == Returned(result)
    ensures u.future == t.future
    ensures u == t.(posted := u.posted, worker := u.worker)
  {
    PostResult(t, Some(result)).(worker := Returned(result))
  }

  /** FutureTask.run after call() returned `value`: set(value) records it
      only if the future is still not completed, and then runs done(), which
      posts nothing because `mTaskInvoked` is already set. */
  function SetFuture<P, Pr, R>(p: Protocol, t: Task<P, Pr, R>): (s: Step<P, Pr, R>)
    requires t.worker.Returned? && t.invoked
    ensures s.reply == Ok
    ensures s.task.posted == t.posted
    ensures s.task.future == (if t.future.New? then Completed(t.worker.value) else t.future)
    ensures s.task == t.(worker := Exited, future := s.task.future)
  {
    var exited := t.(worker := Exited);
    if t.future.New? then Done(p, exited.(future := Completed(t.worker.value)))
    else Step(exited, Ok)
  }

  /** doInBackground threw: nothing is posted; FutureTask.setException
      records the failure only if the future is still not completed, and
      then done() rethrows it. */
  function WorkerThrow<P, Pr, R>(p: Protocol, t: Task<P, Pr, R>): (s: Step<P, Pr, R>)
    requires t.worker.Computing?
    ensures s.reply == (if t.future.New? then Raise(ComputationFailed) else Ok)
    ensures s.task.posted == t.posted
    ensures s.task == t.(worker := Exited, future := if t.future.New? then Failed else t.future)
  {
    var exited := t.(worker := Exited);
    if t.future.New? then Done(p, exited.(future := Failed))
    else Step(exited, Ok)
  }

  /** finish(result): exactly one of onCancelled(result) (if cancelled) or
      onPostExecute(result) (otherwise), then FINISHED. */
  function Finish<P, Pr, R>(t: Task<P, Pr, R>, result: Option<R>): (u: Task<P, Pr, R>)
    ensures u.status.Finished?
    ensures |u.hooks| == |t.hooks| + 1 && u.hooks[..|t.hooks|] == t.hooks
    ensures IsTerminal(u.hooks[|t.hooks|])
    ensures u.hooks[|t.hooks|].OnCancelled? <==> t.cancelled
    ensures u.hooks[|t.hooks|].result == result
    ensures u == t.(status := Finished, hooks := u.hooks)
  {
    var hook := if IsCancelled(t) then OnCancelled(result) else OnPostExecute(result);
    t.(hooks := t.hooks + [hook], status := Finished)
  }

  /** InternalHandler.handleMessage for the next message in send order: a
      result goes to finish, progress to onProgressUpdate. */
  function HandleMessage<P, Pr, R>(t: Task<P, Pr, R>): (u: Task<P, Pr, R>)
    requires t.handled < |t.posted|
    ensures u.handled == t.handled + 1 && u.posted == t.posted
    ensures |u.hooks| == |t.hooks| + 1 && u.hooks[..|t.hooks|] == t.hooks
    ensures Delivers(t.posted[t.handled], u.hooks[|t.hooks|])
    ensures t.posted[t.handled].ProgressMsg? ==> u.status == t.status
    ensures t.posted[t.handled].ResultMsg? ==> u.status.Finished?
    ensures u.cancelled == t.cancelled && u.worker == t.worker && u.future == t.future
    ensures u.invoked == t.invoked && u.submitted == t.submitted && u.params == t.params
  {
    var next := t.(handled := t.handled + 1);
    match t.posted[t.handled]
    case ResultMsg(r) => Finish(next, r)
    case ProgressMsg(v) => next.(hooks := next.hooks + [OnProgressUpdate(v)])
  }

  /** Whether `e` can happen in state `t`: the future is cancelled only by
      a cancel call that has already set the flag, the executor runs a
      submitted future once, the worker's steps follow its phase,
      publishProgress is called from doInBackground, and the handler needs
      a message. Any number of cancel calls may be under way, so the
      future may be cancelled more than once after the flag is set. */
  predicate Enabled<P, Pr, R>(t: Task<P, Pr, R>, e: Event<P, Pr, R>) {
    match e
    case Execute(_, _) => true
    case SetCancelFlag => true
    case CancelFuture(_) => t.cancelled
    case RunFuture => t.submitted && t.worker.Idle?
    case MarkInvoked => t.worker.Entered?
    case Publish(_) => t.worker.Computing?
    case Return(_) => t.worker.Computing? && t.invoked
    case Settle => t.worker.Returned? && t.invoked
    case Throw => t.worker.Computing?
    case HandleNext => t.handled < |t.posted|
  }

  /** The steps taken on the thread running `mFuture`. */
  predicate IsWorkerStep<P, Pr, R>(e: Event<P, Pr, R>) {
    e.RunFuture? || e.MarkInvoked? || e.Publish? || e.Return? || e.Settle? || e.Throw?
  }

  /** What no event undoes: the status never goes back, the future settles
      at most once and the logs only grow. */
  ghost predicate MovesForward<P, Pr, R>(t: Task<P, Pr, R>, u: Task<P, Pr, R>) {
    && t.status.Rank() <= u.status.Rank()
    && (!t.future.New? ==> u.future == t.future)
    && t.hooks <= u.hooks && t.posted <= u.posted
  }

  /** An enabled step of the owning thread or of a cancelling thread. */
  function ApplyCaller<P, Pr, R>(p: Protocol, t: Task<P, Pr, R>, e: Event<P, Pr, R>): (s: Step<P, Pr, R>)
    requires Enabled(t, e) && !IsWorkerStep(e)
    ensures MovesForward(t, s.task)
    ensures s.task.cancelled == (t.cancelled || e.SetCancelFlag?)
  {
    match e
    case Execute(params, accepted) => ExecuteOnExecutor(t, params, accepted)
    case SetCancelFlag => Step(t.(cancelled := true), Ok)
    case CancelFuture(b) => CancelFutureOf(p, t, b)
    case HandleNext => Step(HandleMessage(t), Ok)
  }

  /** An enabled step of the worker thread. */
  function ApplyWorker<P, Pr, R>(p: Protocol, t: Task<P, Pr, R>, e: Event<P, Pr, R>): (s: Step<P, Pr, R>)
    requires Enabled(t, e) && IsWorkerStep(e)
    ensures MovesForward(t, s.task)
    ensures s.task.cancelled == t.cancelled
  {
    match e
    case RunFuture => Step(RunFutureOf(t), Ok)
    case MarkInvoked => Step(MarkInvokedOf(p, t), Ok)
    case Publish(values) => Step(PublishProgress(t, values), Ok)
    case Return(r) => Step(WorkerReturn(t, r), Ok)
    case Settle => SetFuture(p, t)
    case Throw => WorkerThrow(p, t)
  }

  /** One event; an event that cannot happen leaves the task unchanged.
      Whatever happens, the status never goes back, the cancel flag is
      set only by cancel and never reset, the future settles at most once
      and the logs only grow. */
  function Apply<P, Pr, R>(p: Protocol, t: Task<P, Pr, R>, e: Event<P, Pr, R>): (s: Step<P, Pr, R>)
    ensures t.status.Rank() <= s.task.status.Rank()
    ensures s.task.cancelled == (t.cancelled || e.SetCancelFlag?)
    ensures !t.future.New? ==> s.task.future == t.future
    ensures t.hooks <= s.task.hooks && t.posted <= s.task.posted
  {
    if !Enabled(t, e) then Step(t, Ok)
    else if IsWorkerStep(e) then ApplyWorker(p, t, e)
    else ApplyCaller(p, t, e)
  }

  /** Cancellation silences the deliveries it promises to: once the task is
      cancelled no event adds a PROGRESS message or an onPostExecute, and
      while it is not cancelled no event adds an onCancelled. */
  lemma CancelSilencesDeliveries<P, Pr, R>(p: Protocol, t: Task<P, Pr, R>, e: Event<P, Pr, R>)
    ensures var u := Apply(p, t, e).task;
            && (t.cancelled ==> CountIf(u.posted, IsProgress) == CountIf(t.posted, IsProgress))
            && (t.cancelled ==> CountIf(u.hooks, IsPostExecute) == CountIf(t.hooks, IsPostExecute))
            && (!u.cancelled ==> CountIf(u.hooks, IsOnCancelled) == CountIf(t.hooks, IsOnCancelled))
  {
    if Enabled(t, e) {
      ApplyCounts(t, Apply(p, t, e).task, e);
    }
  }

  /** The bookkeeping behind CancelSilencesDeliveries. */
  lemma ApplyCounts<P, Pr, R>(t: Task<P, Pr, R>, u: Task<P, Pr, R>, e: Event<P, Pr, R>)
    requires t.posted <= u.posted && t.hooks <= u.hooks
    requires |u.posted| <= |t.posted| + 1 && |u.hooks| <= |t.hooks| + 1
    requires t.cancelled ==> u.cancelled
    requires |u.posted| > |t.posted| && t.cancelled ==> IsResult(u.posted[|t.posted|])
    requires |u.hooks| > |t.hooks| && t.cancelled ==> !IsPostExecute(u.hooks[|t.hooks|])
    requires |u.hooks| > |t.hooks| && !u.cancelled ==> !IsOnCancelled(u.hooks[|t.hooks|])
    ensures t.cancelled ==> CountIf(u.posted, IsProgress) == CountIf(t.posted, IsProgress)
    ensures t.cancelled ==> CountIf(u.hooks, IsPostExecute) == CountIf(t.hooks, IsPostExecute)
    ensures !u.cancelled ==> CountIf(u.hooks, IsOnCancelled) == CountIf(t.hooks, IsOnCancelled)
  {
    if |u.posted| > |t.posted| {
      assert u.posted == t.posted + [u.posted[|t.posted|]];
      CountIfAppend(t.posted, u.posted[|t.posted|], IsProgress);
    } else {
      assert u.posted == t.posted;
    }
    if |u.hooks| > |t.hooks| {
      assert u.hooks == t.hooks + [u.hooks[|t.hooks|]];
      CountIfAppend(t.hooks, u.hooks[|t.hooks|], IsPostExecute);
      CountIfAppend(t.hooks, u.hooks[|t.hooks|], IsOnCancelled);
    } else {
      assert u.hooks == t.hooks;
    }
  }

  /** The task after the events in `events`, in order. */
  function Replay<P, Pr, R>(p: Protocol, t: Task<P, Pr, R>, events: seq<Event<P, Pr, R>>): Task<P, Pr, R>
    decreases |events|
  {
    if |events| == 0 then t
    else Replay(p, Apply(p, t, events[0]).task, events[1..])
  }
}

=== FILE: counting.dfy ===
/** Counting the elements of a sequence that satisfy a predicate, used for
    the message and hook logs of the AsyncTask model. */
module Counting {

  /** The number of elements of `xs` that satisfy `f`, counted from
      the last element back. */
  function CountIf<T>(xs: seq<T>, f: T -> bool): (n: nat)
    ensures n <= |xs|
  {
    if |xs| == 0 then 0
    else CountIf(xs[..|xs| - 1], f) + (if f(xs[|xs| - 1]) then 1 else 0)
  }

  /** Appending one element adds one to the count exactly when it satisfies `f`. */
  lemma CountIfAppend<T>(xs: seq<T>, x: T, f: T -> bool)
    ensures CountIf(xs + [x], f) == CountIf(xs, f) + (if f(x) then 1 else 0)
  {
    assert (xs + [x])[..|xs|] == xs;
  }

  /** A prefix never holds more matching elements than the whole sequence. */
  lemma {:induction false} CountIfPrefix<T>(xs: seq<T>, k: nat, f: T -> bool)
    requires k <= |xs|
    ensures CountIf(xs[..k], f) <= CountIf(xs, f)
  {
    if k < |xs| {
      assert xs[..|xs| - 1][..k] == xs[..k];
      CountIfPrefix(xs[..|xs| - 1], k, f);
    } else {
      assert xs[..k] == xs;
    }
  }

  /** A count of zero means that no element satisfies `f`. */
  lemma {:induction false} CountIfZero<T>(xs: seq<T>, f: T -> bool)
    requires CountIf(xs, f) == 0
    ensures forall i | 0 <= i < |xs| :: !f(xs[i])
  {
    if |xs| > 0 {
      var init := xs[..|xs| - 1];
      CountIfZero(init, f);
      assert forall i | 0 <= i < |xs| - 1 :: xs[i] == init[i];
    }
  }
}

=== FILE: delivery.dfy ===
/** Delivery properties of the AsyncTask model: which results reach the
    owning thread, which hook each one reaches, and what cancellation and a
    failing doInBackground suppress.

    AsyncTask decides who posts the result with `mTaskInvoked`: the worker
    sets it on entering `call`, and done() posts only if it is still unset.
    FutureTask can enter `call` before the flag is set, and a cancel landing
    in that window lets both paths post (`DoubleResultWitness`). Under the
    `Claimed` protocol, where both paths claim the flag with getAndSet, at
    most one result is ever posted (`AtMostOneResult`). Because call()
    posts its result before FutureTask completes the future, a cancel can
    still succeed after onPostExecute (`CancelSucceedsAfterPostExecute`).
    Because cancel sets `mCancelled` before it cancels the future, the
    worker can finish in between: the cancel then fails, and the value goes
    to onCancelled (`CancelFailsYetOnCancelled`) or the failure is rethrown
    (`FailureRethrownAfterCancelFlag`). */
module Delivery {
  import opened Wrappers
  import opened Counting
  import opened TaskState
  import opened AsyncTask
  import opened Lifecycle

  /** Under `Claimed`: at most one result was posted; once it is, the flag is
      taken, doInBackground is not running, and nothing was posted after it. */
  ghost predicate SingleClaim<P, Pr, R>(t: Task<P, Pr, R>) {
    && CountIf(t.posted, IsResult) <= 1
    && (CountIf(t.posted, IsResult) == 1 ==>
          && t.invoked
          && !t.worker.Computing?
          && IsResult(t.posted[|t.posted| - 1]))
  }

  /** A claimed cancel posts the null result only if it takes the flag. */
  lemma CancelKeepsSingleClaim<P, Pr, R>(t: Task<P, Pr, R>, mayInterrupt: bool)
    requires Valid(t) && SingleClaim(t)
    ensures SingleClaim(CancelFutureOf(Claimed, t, mayInterrupt).task)
  {
    CountIfAppend(t.posted, ResultMsg(None), IsResult);
  }

  /** Progress is published only while doInBackground runs, before any result. */
  lemma PublishKeepsSingleClaim<P, Pr, R>(t: Task<P, Pr, R>, values: seq<Pr>)
    requires Valid(t) && SingleClaim(t) && t.worker.Computing?
    ensures SingleClaim(PublishProgress(t, values))
  {
    CountIfAppend(t.posted, ProgressMsg(values), IsResult);
  }

  /** The worker that holds the flag posts the one result. */
  lemma ReturnKeepsSingleClaim<P, Pr, R>(t: Task<P, Pr, R>, r: R)
    requires Valid(t) && SingleClaim(t) && t.worker.Computing? && t.invoked
    ensures SingleClaim(WorkerReturn(t, r))
  {
    CountIfAppend(t.posted, ResultMsg(Some(r)), IsResult);
  }

  lemma ClaimedKeepsSingleClaim<P, Pr, R>(t: Task<P, Pr, R>, e: Event<P, Pr, R>)
    requires Valid(t) && SingleClaim(t)
    ensures SingleClaim(Apply(Claimed, t, e).task)
  {
    if Enabled(t, e) {
      match e
      case Execute(_, _) =>
      case SetCancelFlag =>
      case CancelFuture(b) => CancelKeepsSingleClaim(t, b);
      case RunFuture =>
      case MarkInvoked =>
      case Publish(values) => PublishKeepsSingleClaim(t, values);
      case Return(r) => ReturnKeepsSingleClaim(t, r);
      case Settle =>
      case Throw =>
      case HandleNext =>
    }
  }

  lemma {:induction false} ReplayKeepsSingleClaim<P, Pr, R>(t: Task<P, Pr, R>, events: seq<Event<P, Pr, R>>)
    requires Valid(t) && SingleClaim(t)
    ensures Valid(Replay(Claimed, t, events)) && SingleClaim(Replay(Claimed, t, events))
    decreases |events|
  {
    if |events| > 0 {
      ApplyKeepsValid(Claimed, t, events[0]);
      ClaimedKeepsSingleClaim(t, events[0]);
      ReplayKeepsSingleClaim(Apply(Claimed, t, events[0]).task, events[1..]);
    }
  }

  /** With the flag claimed by getAndSet on both paths, whatever the
      interleaving, at most one result is ever posted, at most one of
      onPostExecute and onCancelled ever fires, and a FINISHED task has had
      exactly one of them. */
  lemma AtMostOneResult<P, Pr, R>(events: seq<Event<P, Pr, R>>)
    ensures var u := Replay(Claimed, Init<P, Pr, R>(), events);
            && CountIf(u.posted, IsResult) <= 1
            && CountIf(u.hooks, IsTerminal) <= 1
            && (GetStatus(u).Finished? <==> CountIf(u.hooks, IsTerminal) == 1)
  {
    InitValid<P, Pr, R>();
    ReplayKeepsSingleClaim(Init<P, Pr, R>(), events);
    var u := Replay(Claimed, Init<P, Pr, R>(), events);
    CountIfPrefix(u.posted, u.handled, IsResult);
  }

  /** With the flag claimed on both paths, the result is the last message the
      task ever posts: every progress message precedes it, and so (the
      handler being FIFO) every onProgressUpdate precedes the terminal hook. */
  lemma ProgressPrecedesResult<P, Pr, R>(events: seq<Event<P, Pr, R>>)
    ensures var u := Replay(Claimed, Init<P, Pr, R>(), events);
            forall i | 0 <= i < |u.posted| && IsResult(u.posted[i]) :: i == |u.posted| - 1
  {
    InitValid<P, Pr, R>();
    ReplayKeepsSingleClaim(Init<P, Pr, R>(), events);
    var u := Replay(Claimed, Init<P, Pr, R>(), events);
    if CountIf(u.posted, IsResult) == 0 {
      CountIfZero(u.posted, IsResult);
    } else {
      var n := |u.posted|;
      var init := u.posted[..n - 1];
      assert u.posted == init + [u.posted[n - 1]];
      CountIfAppend(init, u.posted[n - 1], IsResult);
      CountIfZero(init, IsResult);
      assert forall i | 0 <= i < n - 1 :: u.posted[i] == init[i];
    }
  }

  /** Under either protocol: once a result is posted, either the task is
      cancelled (so publishProgress posts nothing) or doInBackground has
      returned (so nobody calls publishProgress); and no progress message
      follows a result. */
  ghost predicate ResultBlocksProgress<P, Pr, R>(t: Task<P, Pr, R>) {
    && (CountIf(t.posted, IsResult) > 0 ==> t.cancelled || t.worker.Returned? || t.worker.Exited?)
    && (forall i, j | 0 <= i < j < |t.posted| && IsResult(t.posted[i]) :: !IsProgress(t.posted[j]))
  }

  /** Appending `m` keeps both parts, given that a progress message is
      appended only while nothing is cancelled and no result is posted, and
      a result only by a cancel or a returning call. */
  lemma AppendKeepsResultBlocksProgress<P, Pr, R>(t: Task<P, Pr, R>, u: Task<P, Pr, R>, m: Message<Pr, R>)
    requires ResultBlocksProgress(t)
    requires u.posted == t.posted + [m]
    requires IsProgress(m) ==> CountIf(t.posted, IsResult) == 0
    requires CountIf(u.posted, IsResult) > 0 ==> u.cancelled || u.worker.Returned? || u.worker.Exited?
    ensures ResultBlocksProgress(u)
  {
    if IsProgress(m) {
      CountIfZero(t.posted, IsResult);
    }
  }

  /** An event that posts nothing keeps `ResultBlocksProgress` if it keeps
      the cancel flag and does not bring a finished worker back. */
  lemma SamePostedKeepsResultBlocksProgress<P, Pr, R>(t: Task<P, Pr, R>, u: Task<P, Pr, R>)
    requires ResultBlocksProgress(t)
    requires u.posted == t.posted && (t.cancelled ==> u.cancelled)
    requires t.worker.Returned? || t.worker.Exited? ==> u.worker.Returned? || u.worker.Exited?
    ensures ResultBlocksProgress(u)
  {
  }

  /** A cancel's null result comes after the flag is set. */
  lemma CancelFutureKeepsResultBlocksProgress<P, Pr, R>(p: Protocol, t: Task<P, Pr, R>, mayInterrupt: bool)
    requires ResultBlocksProgress(t) && t.cancelled
    ensures ResultBlocksProgress(CancelFutureOf(p, t, mayInterrupt).task)
  {
    if t.future.New? && !t.invoked {
      CountIfAppend(t.posted, ResultMsg(None), IsResult);
      AppendKeepsResultBlocksProgress(t, CancelFutureOf(p, t, mayInterrupt).task, ResultMsg(None));
    }
  }

  /** Progress is posted only by an uncancelled, still computing worker. */
  lemma PublishKeepsResultBlocksProgress<P, Pr, R>(t: Task<P, Pr, R>, values: seq<Pr>)
    requires ResultBlocksProgress(t) && t.worker.Computing?
    ensures ResultBlocksProgress(PublishProgress(t, values))
  {
    if !t.cancelled {
      CountIfAppend(t.posted, ProgressMsg(values), IsResult);
      AppendKeepsResultBlocksProgress(t, PublishProgress(t, values), ProgressMsg(values));
    }
  }

  /** call() posts its result as doInBackground returns. */
  lemma ReturnKeepsResultBlocksProgress<P, Pr, R>(t: Task<P, Pr, R>, r: R)
    requires ResultBlocksProgress(t) && t.worker.Computing? && t.invoked
    ensures ResultBlocksProgress(WorkerReturn(t, r))
  {
    CountIfAppend(t.posted, ResultMsg(Some(r)), IsResult);
    AppendKeepsResultBlocksProgress(t, WorkerReturn(t, r), ResultMsg(Some(r)));
  }

  /** Every event keeps `ResultBlocksProgress`, under either protocol. */
  lemma ApplyKeepsResultBlocksProgress<P, Pr, R>(p: Protocol, t: Task<P, Pr, R>, e: Event<P, Pr, R>)
    requires ResultBlocksProgress(t)
    ensures ResultBlocksProgress(Apply(p, t, e).task)
  {
    if Enabled(t, e) {
      match e
      case CancelFuture(b) => CancelFutureKeepsResultBlocksProgress(p, t, b);
      case Publish(values) => PublishKeepsResultBlocksProgress(t, values);
      case Return(r) => ReturnKeepsResultBlocksProgress(t, r);
      case _ => SamePostedKeepsResultBlocksProgress(t, Apply(p, t, e).task);
    }
  }

  lemma {:induction false} ReplayKeepsResultBlocksProgress<P, Pr, R>(p: Protocol, t: Task<P, Pr, R>, events: seq<Event<P, Pr, R>>)
    requires ResultBlocksProgress(t)
    ensures ResultBlocksProgress(Replay(p, t, events))
    decreases |events|
  {
    if |events| > 0 {
      ApplyKeepsResultBlocksProgress(p, t, events[0]);
      ReplayKeepsResultBlocksProgress(p, Apply(p, t, events[0]).task, events[1..]);
    }
  }

  /** Under either protocol, even as written: no progress message is ever
      posted after a result, so (the handler being FIFO) no
      onProgressUpdate follows a terminal hook's message. */
  lemma ProgressNeverFollowsResult<P, Pr, R>(p: Protocol, events: seq<Event<P, Pr, R>>)
    ensures var u := Replay(p, Init<P, Pr, R>(), events);
            forall i, j | 0 <= i < j < |u.posted| && IsResult(u.posted[i]) :: !IsProgress(u.posted[j])
  {
    ReplayKeepsResultBlocksProgress(p, Init<P, Pr, R>(), events);
  }

  /** Replaying a run whose every event takes `states[i]` to `states[i + 1]`
      from its k-th state ends in its last state. */
  lemma {:induction false} ReplayChain<P, Pr, R>(
    p: Protocol, states: seq<Task<P, Pr, R>>, events: seq<Event<P, Pr, R>>, k: nat)
    requires |states| == |events| + 1 && k <= |events|
    requires forall i | 0 <= i < |events| :: Apply(p, states[i], events[i]).task == states[i + 1]
    ensures Replay(p, states[k], events[k..]) == states[|events|]
    decreases |events| - k
  {
    if k < |events| {
      assert events[k..][1..] == events[k + 1..];
      ReplayChain(p, states, events, k + 1);
    } else {
      assert events[k..] == [];
    }
  }

  /** A task that `execute` handed to an accepting executor. */
  function Launched(): Task<int, int, int> {
    Task(Running, false, false, Some([]), true, New, Idle, [], 0, [OnPreExecute])
  }

  /** The racy interleaving: execute, the executor enters `call`, cancel,
      `call` sets the flag, doInBackground returns, FutureTask.run finishes,
      and the handler processes both messages. */
  function RaceEvents(r: int): seq<Event<int, int, int>> {
    [Execute([], true), RunFuture, SetCancelFlag, CancelFuture(false), MarkInvoked, Return(r), Settle, HandleNext, HandleNext]
  }

  /** The states `RaceEvents` passes through. */
  function RaceStates(r: int): seq<Task<int, int, int>> {
    var t2 := Launched().(worker := Entered);
    var t3 := t2.(cancelled := true);
    var t4 := t3.(future := Cancelled, posted := [ResultMsg(None)]);
    var t5 := t4.(invoked := true, worker := Computing);
    var t6 := t5.(worker := Returned(r), posted := [ResultMsg(None), ResultMsg(Some(r))]);
    var t7 := t6.(worker := Exited);
    var t8 := t7.(handled := 1, status := Finished, hooks := [OnPreExecute, OnCancelled(None)]);
    var t9 := t8.(handled := 2, hooks := [OnPreExecute, OnCancelled(None), OnCancelled(Some(r))]);
    [Init(), Launched(), t2, t3, t4, t5, t6, t7, t8, t9]
  }

  lemma RaceStart(r: int)
    ensures Apply(AsWritten, RaceStates(r)[0], RaceEvents(r)[0]).task == RaceStates(r)[1]
    ensures Apply(AsWritten, RaceStates(r)[1], RaceEvents(r)[1]).task == RaceStates(r)[2]
  {
  }

  lemma RaceCancel(r: int)
    ensures Apply(AsWritten, RaceStates(r)[2], RaceEvents(r)[2]).task == RaceStates(r)[3]
    ensures Apply(AsWritten, RaceStates(r)[3], RaceEvents(r)[3]).task == RaceStates(r)[4]
  {
  }

  lemma RaceWorker(r: int)
    ensures Apply(AsWritten, RaceStates(r)[4], RaceEvents(r)[4]).task == RaceStates(r)[5]
    ensures Apply(AsWritten, RaceStates(r)[5], RaceEvents(r)[5]).task == RaceStates(r)[6]
    ensures Apply(AsWritten, RaceStates(r)[6], RaceEvents(r)[6]).task == RaceStates(r)[7]
  {
  }

  lemma RaceHandle(r: int)
    ensures Apply(AsWritten, RaceStates(r)[7], RaceEvents(r)[7]).task == RaceStates(r)[8]
    ensures Apply(AsWritten, RaceStates(r)[8], RaceEvents(r)[8]).task == RaceStates(r)[9]
  {
  }

  /** The logs at the end of the racy interleaving. */
  lemma RaceRun(r: int)
    ensures var u := Replay(AsWritten, Init<int, int, int>(), RaceEvents(r));
            && u.posted == [ResultMsg(None), ResultMsg(Some(r))]
            && u.hooks == [OnPreExecute, OnCancelled(None), OnCancelled(Some(r))]
  {
    var states, events := RaceStates(r), RaceEvents(r);
    RaceStart(r);
    RaceCancel(r);
    RaceWorker(r);
    RaceHandle(r);
    ReplayChain(AsWritten, states, events, 0);
    assert events[0..] == events;
  }

  lemma TwoTerminalHooks(r: int)
    ensures CountIf([OnPreExecute, OnCancelled(None), OnCancelled(Some(r))], IsTerminal<int, int>) == 2
  {
    var h0: seq<Hook<int, int>> := [];
    var h1 := h0 + [OnPreExecute];
    var h2 := h1 + [OnCancelled(None)];
    assert [OnPreExecute, OnCancelled(None), OnCancelled(Some(r))] == h2 + [OnCancelled(Some(r))];
    CountIfAppend(h0, OnPreExecute, IsTerminal);
    CountIfAppend(h1, OnCancelled(None), IsTerminal);
    CountIfAppend(h2, OnCancelled(Some(r)), IsTerminal);
  }

  /** AsyncTask as written: a cancel that lands after FutureTask.run has
      entered `call` but before `mTaskInvoked.set(true)` makes done() post a
      null result, and the worker then posts its own. The handler finishes
      the task twice, and onCancelled fires twice. */
  lemma DoubleResultWitness(r: int)
    ensures var u := Replay(AsWritten, Init<int, int, int>(), RaceEvents(r));
            && u.posted == [ResultMsg(None), ResultMsg(Some(r))]
            && u.hooks == [OnPreExecute, OnCancelled(None), OnCancelled(Some(r))]
            && CountIf(u.hooks, IsTerminal) == 2
  {
    RaceRun(r);
    TwoTerminalHooks(r);
  }

  /** An ordinary run in which the owning thread cancels after
      onPostExecute: execute, the worker runs, call() posts its result, the
      handler finishes the task, cancel, and only then FutureTask.run
      records the value. */
  function LateCancelEvents(r: int): seq<Event<int, int, int>> {
    [Execute([], true), RunFuture, MarkInvoked, Return(r), HandleNext, SetCancelFlag, CancelFuture(false), Settle]
  }

  /** The states `LateCancelEvents` passes through. */
  function LateCancelStates(r: int): seq<Task<int, int, int>> {
    var s2 := Launched().(worker := Entered);
    var s3 := s2.(invoked := true, worker := Computing);
    var s4 := s3.(worker := Returned(r), posted := [ResultMsg(Some(r))]);
    var s5 := s4.(handled := 1, status := Finished, hooks := [OnPreExecute, OnPostExecute(Some(r))]);
    var s6 := s5.(cancelled := true);
    var s7 := s6.(future := Cancelled);
    var s8 := s7.(worker := Exited);
    [Init(), Launched(), s2, s3, s4, s5, s6, s7, s8]
  }

  lemma LateCancelStart(p: Protocol, r: int)
    ensures Apply(p, LateCancelStates(r)[0], LateCancelEvents(r)[0]).task == LateCancelStates(r)[1]
    ensures Apply(p, LateCancelStates(r)[1], LateCancelEvents(r)[1]).task == LateCancelStates(r)[2]
  {
  }

  lemma LateCancelWorker(p: Protocol, r: int)
    ensures Apply(p, LateCancelStates(r)[2], LateCancelEvents(r)[2]).task == LateCancelStates(r)[3]
    ensures Apply(p, LateCancelStates(r)[3], LateCancelEvents(r)[3]).task == LateCancelStates(r)[4]
  {
  }

  lemma LateCancelHandle(p: Protocol, r: int)
    ensures Apply(p, LateCancelStates(r)[4], LateCancelEvents(r)[4]).task == LateCancelStates(r)[5]
  {
  }

  lemma LateCancelFinish(p: Protocol, r: int)
    ensures Apply(p, LateCancelStates(r)[5], LateCancelEvents(r)[5]).task == LateCancelStates(r)[6]
    ensures Apply(p, LateCancelStates(r)[6], LateCancelEvents(r)[6]).task == LateCancelStates(r)[7]
    ensures Apply(p, LateCancelStates(r)[7], LateCancelEvents(r)[7]).task == LateCancelStates(r)[8]
  {
  }

  /** Under either protocol, call() posts its result before FutureTask
      completes the future, so cancel can still succeed after onPostExecute
      has run: it returns true and sets isCancelled, yet nothing more is
      posted and onCancelled never fires, then or later. */
  lemma CancelSucceedsAfterPostExecute(p: Protocol, r: int, later: seq<Event<int, int, int>>)
    ensures var mid := Replay(p, Init<int, int, int>(), LateCancelEvents(r)[..5]);
            && GetStatus(mid).Finished?
            && mid.hooks == [OnPreExecute, OnPostExecute(Some(r))]
            && Cancel(p, mid, false).reply == Answer(true)
    ensures var end := Replay(p, Init<int, int, int>(), LateCancelEvents(r));
            && IsCancelled(end)
            && end.posted == [ResultMsg(Some(r))]
            && end.hooks == [OnPreExecute, OnPostExecute(Some(r))]
            && end.future.Cancelled?
            && Replay(p, end, later) == end
  {
    var states, events := LateCancelStates(r), LateCancelEvents(r);
    LateCancelStart(p, r);
    LateCancelWorker(p, r);
    LateCancelHandle(p, r);
    LateCancelFinish(p, r);
    ReplayChain(p, states, events, 0);
    ReplayChain(p, states[..6], events[..5], 0);
    assert events[0..] == events && events[..5][0..] == events[..5];
    QuiescentStaysPut(p, states[8], later);
  }

  /** A task whose doInBackground is running when the owning thread's
      cancel has set `mCancelled` but not yet cancelled the future. */
  function Flagged(): Task<int, int, int> {
    Launched().(worker := Computing, invoked := true, cancelled := true)
  }

  /** cancel sets the flag while doInBackground runs; doInBackground
      returns (for instance on seeing isCancelled()), FutureTask records
      the value, and only then does cancel reach the future. */
  function FlagFirstEvents(r: int): seq<Event<int, int, int>> {
    [Execute([], true), RunFuture, MarkInvoked, SetCancelFlag, Return(r), Settle, CancelFuture(false), HandleNext]
  }

  /** The states `FlagFirstEvents` passes through. */
  function FlagFirstStates(r: int): seq<Task<int, int, int>> {
    var f2 := Launched().(worker := Entered);
    var f3 := f2.(invoked := true, worker := Computing);
    var f5 := Flagged().(worker := Returned(r), posted := [ResultMsg(Some(r))]);
    var f6 := f5.(worker := Exited, future := Completed(r));
    var f8 := f6.(handled := 1, status := Finished, hooks := [OnPreExecute, OnCancelled(Some(r))]);
    [Init(), Launched(), f2, f3, Flagged(), f5, f6, f6, f8]
  }

  lemma FlagFirstStart(p: Protocol, r: int)
    ensures Apply(p, FlagFirstStates(r)[0], FlagFirstEvents(r)[0]).task == FlagFirstStates(r)[1]
    ensures Apply(p, FlagFirstStates(r)[1], FlagFirstEvents(r)[1]).task == FlagFirstStates(r)[2]
  {
  }

  lemma FlagFirstFlag(p: Protocol, r: int)
    ensures Apply(p, FlagFirstStates(r)[2], FlagFirstEvents(r)[2]).task == FlagFirstStates(r)[3]
    ensures Apply(p, FlagFirstStates(r)[3], FlagFirstEvents(r)[3]).task == FlagFirstStates(r)[4]
  {
  }

  lemma FlagFirstWorker(p: Protocol, r: int)
    ensures Apply(p, FlagFirstStates(r)[4], FlagFirstEvents(r)[4]).task == FlagFirstStates(r)[5]
    ensures Apply(p, FlagFirstStates(r)[5], FlagFirstEvents(r)[5]).task == FlagFirstStates(r)[6]
  {
  }

  lemma FlagFirstFinish(p: Protocol, r: int)
    ensures Apply(p, FlagFirstStates(r)[6], FlagFirstEvents(r)[6]).task == FlagFirstStates(r)[7]
    ensures Apply(p, FlagFirstStates(r)[7], FlagFirstEvents(r)[7]).task == FlagFirstStates(r)[8]
  {
  }

  /** Under either protocol, a cancel whose flag is set before
      doInBackground returns, but whose future cancel comes after FutureTask
      has recorded the value, returns false; the future keeps the computed
      value, and yet the handler delivers it to onCancelled. */
  lemma CancelFailsYetOnCancelled(p: Protocol, r: int)
    ensures var before := Replay(p, Init<int, int, int>(), FlagFirstEvents(r)[..6]);
            && IsCancelled(before)
            && before.future == Completed(r)
            && Apply(p, before, CancelFuture(false)).reply == Answer(false)
    ensures var end := Replay(p, Init<int, int, int>(), FlagFirstEvents(r));
            && end.future == Completed(r)
            && end.posted == [ResultMsg(Some(r))]
            && end.hooks == [OnPreExecute, OnCancelled(Some(r))]
            && GetStatus(end).Finished?
  {
    var states, events := FlagFirstStates(r), FlagFirstEvents(r);
    FlagFirstStart(p, r);
    FlagFirstFlag(p, r);
    FlagFirstWorker(p, r);
    FlagFirstFinish(p, r);
    ReplayChain(p, states, events, 0);
    ReplayChain(p, states[..7], events[..6], 0);
    assert events[0..] == events && events[..6][0..] == events[..6];
  }

  /** cancel sets the flag while doInBackground runs; doInBackground
      throws before cancel reaches the future. */
  function FlagThenThrowEvents(): seq<Event<int, int, int>> {
    [Execute([], true), RunFuture, MarkInvoked, SetCancelFlag, Throw, CancelFuture(false)]
  }

  /** The states `FlagThenThrowEvents` passes through. */
  function FlagThenThrowStates(): seq<Task<int, int, int>> {
    var f2 := Launched().(worker := Entered);
    var f3 := f2.(invoked := true, worker := Computing);
    var g5 := Flagged().(worker := Exited, future := Failed);
    [Init(), Launched(), f2, f3, Flagged(), g5, g5]
  }

  lemma FlagThenThrowStart(p: Protocol)
    ensures Apply(p, FlagThenThrowStates()[0], FlagThenThrowEvents()[0]).task == FlagThenThrowStates()[1]
    ensures Apply(p, FlagThenThrowStates()[1], FlagThenThrowEvents()[1]).task == FlagThenThrowStates()[2]
  {
  }

  lemma FlagThenThrowFlag(p: Protocol)
    ensures Apply(p, FlagThenThrowStates()[2], FlagThenThrowEvents()[2]).task == FlagThenThrowStates()[3]
    ensures Apply(p, FlagThenThrowStates()[3], FlagThenThrowEvents()[3]).task == FlagThenThrowStates()[4]
  {
  }

  lemma FlagThenThrowFinish(p: Protocol)
    ensures Apply(p, FlagThenThrowStates()[4], FlagThenThrowEvents()[4]).task == FlagThenThrowStates()[5]
    ensures Apply(p, FlagThenThrowStates()[5], FlagThenThrowEvents()[5]).task == FlagThenThrowStates()[6]
  {
  }

  /** Under either protocol, a doInBackground that throws after cancel has
      set the flag but before it has cancelled the future still has its
      failure rethrown by done(), and the cancel then returns false. */
  lemma FailureRethrownAfterCancelFlag(p: Protocol)
    ensures var flagged := Replay(p, Init<int, int, int>(), FlagThenThrowEvents()[..4]);
            && IsCancelled(flagged)
            && flagged.future.New?
            && Apply(p, flagged, Throw).reply == Raise(ComputationFailed)
    ensures var thrown := Replay(p, Init<int, int, int>(), FlagThenThrowEvents()[..5]);
            && thrown.future.Failed?
            && thrown.posted == []
            && Apply(p, thrown, CancelFuture(false)).reply == Answer(false)
  {
    var states, events := FlagThenThrowStates(), FlagThenThrowEvents();
    FlagThenThrowStart(p);
    FlagThenThrowFlag(p);
    FlagThenThrowFinish(p);
    ReplayChain(p, states[..5], events[..4], 0);
    ReplayChain(p, states[..6], events[..5], 0);
    assert events[..4][0..] == events[..4] && events[..5][0..] == events[..5];
  }

  /** After a cancel that comes before the executor runs the future, under
      either protocol: cancel reports success, exactly one null result is
      posted, doInBackground never runs, and nothing else is ever posted. */
  lemma {:induction false} CancelBeforeRunPostsNullOnce<P, Pr, R>(
    p: Protocol, t: Task<P, Pr, R>, mayInterrupt: bool, events: seq<Event<P, Pr, R>>)
    requires Valid(t) && t.future.New? && t.worker.Idle?
    ensures var c := Cancel(p, t, mayInterrupt);
            && c.reply == Answer(true)
            && c.task.posted == t.posted + [ResultMsg(None)]
            && CountIf(c.task.posted, IsResult) == 1
            && Replay(p, c.task, events).posted == c.task.posted
            && (Replay(p, c.task, events).worker.Idle? || Replay(p, c.task, events).worker.Exited?)
  {
    var c := Cancel(p, t, mayInterrupt).task;
    CountIfAppend(t.posted, ResultMsg(None), IsResult);
    NothingMorePosted(p, c, events);
  }

  /** A cancelled task whose future is settled and whose worker never got
      past FutureTask.run posts nothing more. */
  lemma {:induction false} NothingMorePosted<P, Pr, R>(p: Protocol, t: Task<P, Pr, R>, events: seq<Event<P, Pr, R>>)
    requires t.cancelled && !t.future.New? && (t.worker.Idle? || t.worker.Exited?)
    ensures Replay(p, t, events).posted == t.posted
    ensures Replay(p, t, events).worker.Idle? || Replay(p, t, events).worker.Exited?
    decreases |events|
  {
    if |events| > 0 {
      DormantStep(p, t, events[0]);
      NothingMorePosted(p, Apply(p, t, events[0]).task, events[1..]);
    }
  }

  /** One event on such a task: it posts nothing, and the worker either
      never starts or leaves FutureTask.run at once. */
  lemma DormantStep<P, Pr, R>(p: Protocol, t: Task<P, Pr, R>, e: Event<P, Pr, R>)
    requires t.cancelled && !t.future.New? && (t.worker.Idle? || t.worker.Exited?)
    ensures var u := Apply(p, t, e).task;
            && u.posted == t.posted && u.cancelled && !u.future.New?
            && (u.worker.Idle? || u.worker.Exited?)
  {
  }

  /** If doInBackground throws while the future is still open, done()
      rethrows the failure, nothing is posted, and from then on neither
      onPostExecute nor onCancelled ever fires and the task never reaches
      FINISHED. */
  lemma ThrowFiresNoTerminalHook<P, Pr, R>(p: Protocol, t: Task<P, Pr, R>, events: seq<Event<P, Pr, R>>)
    requires Valid(t) && t.worker.Computing? && t.future.New?
    ensures WorkerThrow(p, t).reply == Raise(ComputationFailed)
    ensures WorkerThrow(p, t).task.posted == t.posted
    ensures var u := Replay(p, WorkerThrow(p, t).task, events);
            && CountIf(u.hooks, IsTerminal) == 0
            && !GetStatus(u).Finished?
  {
    var thrown := Apply(p, t, Throw).task;
    assert thrown == WorkerThrow(p, t).task;
    ApplyKeepsValid(p, t, Throw);
    ReplayKeepsValid(p, thrown, events);
    FailureStays(p, thrown, events);
    var u := Replay(p, thrown, events);
    CountIfPrefix(u.posted, u.handled, IsResult);
  }

  /** A failed future stays failed. */
  lemma {:induction false} FailureStays<P, Pr, R>(p: Protocol, t: Task<P, Pr, R>, events: seq<Event<P, Pr, R>>)
    requires t.future.Failed?
    ensures Replay(p, t, events).future.Failed?
    decreases |events|
  {
    if |events| > 0 {
      FailureStays(p, Apply(p, t, events[0]).task, events[1..]);
    }
  }

  /** publishProgress after cancel posts nothing: a cancelled task never
      gains another progress message, whatever happens next. */
  lemma {:induction false} NoProgressAfterCancel<P, Pr, R>(p: Protocol, t: Task<P, Pr, R>, events: seq<Event<P, Pr, R>>)
    requires IsCancelled(t)
    ensures CountIf(Replay(p, t, events).posted, IsProgress) == CountIf(t.posted, IsProgress)
    decreases |events|
  {
    if |events| > 0 {
      CancelSilencesDeliveries(p, t, events[0]);
      NoProgressAfterCancel(p, Apply(p, t, events[0]).task, events[1..]);
    }
  }

  /** Cancellation observed before the terminal delivery wins: once a task
      is cancelled, onPostExecute never fires again. */
  lemma {:induction false} CancelledNeverPostExecutes<P, Pr, R>(p: Protocol, t: Task<P, Pr, R>, events: seq<Event<P, Pr, R>>)
    requires IsCancelled(t)
    ensures CountIf(Replay(p, t, events).hooks, IsPostExecute) == CountIf(t.hooks, IsPostExecute)
    decreases |events|
  {
    if |events| > 0 {
      CancelSilencesDeliveries(p, t, events[0]);
      CancelledNeverPostExecutes(p, Apply(p, t, events[0]).task, events[1..]);
    }
  }

  /** Conversely, a task nobody cancels never reaches onCancelled. */
  lemma {:induction false} UncancelledNeverOnCancelled<P, Pr, R>(p: Protocol, t: Task<P, Pr, R>, events: seq<Event<P, Pr, R>>)
    requires !IsCancelled(t)
    requires forall i | 0 <= i < |events| :: !events[i].SetCancelFlag?
    ensures !IsCancelled(Replay(p, t, events))
    ensures CountIf(Replay(p, t, events).hooks, IsOnCancelled) == CountIf(t.hooks, IsOnCancelled)
    decreases |events|
  {
    if |events| > 0 {
      assert !events[0].SetCancelFlag?;
      CancelSilencesDeliveries(p, t, events[0]);
      UncancelledNeverOnCancelled(p, Apply(p, t, events[0]).task, events[1..]);
    }
  }

  /** From construction, under either protocol, the handler has processed
      messages strictly in send order: the i-th hook it fired is the delivery
      of the i-th message, progress to onProgressUpdate with the same values
      and a result to onPostExecute or onCancelled with the same value. */
  lemma HandledInSendOrder<P, Pr, R>(p: Protocol, events: seq<Event<P, Pr, R>>)
    ensures var u := Replay(p, Init<P, Pr, R>(), events);
            && u.handled <= |u.posted|
            && |Deliveries(u.hooks)| == u.handled
            && forall i | 0 <= i < u.handled :: Delivers(u.posted[i], Deliveries(u.hooks)[i])
  {
    InitValid<P, Pr, R>();
    ReplayKeepsValid(p, Init<P, Pr, R>(), events);
  }
}

=== FILE: lifecycle.dfy ===
/** Lifecycle properties of the AsyncTask model: the reachable-state
    invariant, status monotonicity, the stickiness of cancellation, the
    once-only execute, and what happens to a task whose executor rejects it. */
module Lifecycle {
  import opened Wrappers
  import opened Counting
  import opened TaskState
  import opened AsyncTask

  /** A newly constructed task satisfies the invariant. */
  lemma InitValid<P, Pr, R>()
    ensures Valid(Init<P, Pr, R>())
  {
    var t := Init<P, Pr, R>();
    assert t.posted[..t.handled] == [];
  }

  /** Appending a message to the handler's queue leaves the handled part alone. */
  lemma PostFacts<P, Pr, R>(t: Task<P, Pr, R>, m: Message<Pr, R>)
    requires t.handled <= |t.posted|
    ensures (t.posted + [m])[..t.handled] == t.posted[..t.handled]
    ensures CountIf(t.posted + [m], IsResult) == CountIf(t.posted, IsResult) + (if m.ResultMsg? then 1 else 0)
  {
    CountIfAppend(t.posted, m, IsResult);
  }

  /** handleMessage keeps the invariant: the new hook is the delivery of the
      next message, and a result both finishes the task and adds one
      terminal hook. */
  lemma HandleKeepsValid<P, Pr, R>(t: Task<P, Pr, R>)
    requires Valid(t) && t.handled < |t.posted|
    ensures Valid(HandleMessage(t))
  {
    var u := HandleMessage(t);
    var h := u.hooks[|t.hooks|];
    assert u.hooks == t.hooks + [h];
    assert PhasesAgree(u) by {
      assert OnPreExecute in t.hooks ==> OnPreExecute in u.hooks;
    }
    HandleKeepsResultsAgree(t, u, h);
    HandleKeepsOrder(t, u, h);
  }

  /** Handling one message keeps the result bookkeeping: it posts nothing,
      touches neither the future nor the worker, and a handled result both
      finishes the task and adds one terminal hook. */
  lemma HandleKeepsResultsAgree<P, Pr, R>(t: Task<P, Pr, R>, u: Task<P, Pr, R>, h: Hook<Pr, R>)
    requires t.handled < |t.posted| && ResultsAgree(t)
    requires u.posted == t.posted && u.handled == t.handled + 1 && u.hooks == t.hooks + [h]
    requires u.future == t.future && u.worker == t.worker
    requires IsTerminal(h) <==> IsResult(t.posted[t.handled])
    requires u.status.Finished? <==> (t.status.Finished? || IsResult(t.posted[t.handled]))
    ensures ResultsAgree(u)
  {
    var m := t.posted[t.handled];
    assert t.posted[..t.handled + 1] == t.posted[..t.handled] + [m];
    CountIfAppend(t.posted[..t.handled], m, IsResult);
    CountIfAppend(t.hooks, h, IsTerminal);
  }

  lemma HandleKeepsOrder<P, Pr, R>(t: Task<P, Pr, R>, u: Task<P, Pr, R>, h: Hook<Pr, R>)
    requires Valid(t) && t.handled < |t.posted|
    requires u == HandleMessage(t) && u.hooks == t.hooks + [h]
    ensures HandledInOrder(u)
  {
  }

  /** executeOnExecutor keeps the invariant: onPreExecute is not a delivery. */
  lemma ExecuteKeepsValid<P, Pr, R>(t: Task<P, Pr, R>, params: seq<P>, accepted: bool)
    requires Valid(t)
    ensures Valid(ExecuteOnExecutor(t, params, accepted).task)
  {
  }

  /** Setting the cancel flag keeps the invariant. */
  lemma FlagKeepsValid<P, Pr, R>(t: Task<P, Pr, R>)
    requires Valid(t)
    ensures Valid(t.(cancelled := true))
  {
  }

  /** Cancelling the future after the flag is set keeps the invariant: its
      null result, if any, is not yet handled. */
  lemma CancelFutureKeepsValid<P, Pr, R>(p: Protocol, t: Task<P, Pr, R>, mayInterrupt: bool)
    requires Valid(t) && t.cancelled
    ensures Valid(CancelFutureOf(p, t, mayInterrupt).task)
  {
    PostFacts(t, ResultMsg(None));
  }

  /** The worker entering `call` and setting mTaskInvoked keep the invariant. */
  lemma StartKeepsValid<P, Pr, R>(p: Protocol, t: Task<P, Pr, R>)
    requires Valid(t)
    ensures t.submitted && t.worker.Idle? ==> Valid(RunFutureOf(t))
    ensures t.worker.Entered? ==> Valid(MarkInvokedOf(p, t))
  {
  }

  /** publishProgress keeps the invariant: progress is not a result. */
  lemma PublishKeepsValid<P, Pr, R>(t: Task<P, Pr, R>, values: seq<Pr>)
    requires Valid(t) && t.worker.Computing?
    ensures Valid(PublishProgress(t, values))
  {
    PostFacts(t, ProgressMsg(values));
  }

  /** call() returning keeps the invariant: its result is the only one
      posted while the future is open, and it is not yet handled. */
  lemma ReturnKeepsValid<P, Pr, R>(t: Task<P, Pr, R>, r: R)
    requires Valid(t) && t.worker.Computing? && t.invoked
    ensures Valid(WorkerReturn(t, r))
  {
    PostFacts(t, ResultMsg(Some(r)));
  }

  /** FutureTask recording the returned value keeps the invariant: done()
      posts nothing more. */
  lemma SetFutureKeepsValid<P, Pr, R>(p: Protocol, t: Task<P, Pr, R>)
    requires Valid(t) && t.worker.Returned? && t.invoked
    ensures Valid(SetFuture(p, t).task)
  {
  }

  /** A throwing doInBackground keeps the invariant: it posts nothing. */
  lemma ThrowKeepsValid<P, Pr, R>(p: Protocol, t: Task<P, Pr, R>)
    requires Valid(t) && t.worker.Computing?
    ensures Valid(WorkerThrow(p, t).task)
  {
  }

  /** Every event keeps the invariant, under either protocol. */
  lemma ApplyKeepsValid<P, Pr, R>(p: Protocol, t: Task<P, Pr, R>, e: Event<P, Pr, R>)
    requires Valid(t)
    ensures Valid(Apply(p, t, e).task)
  {
    if Enabled(t, e) {
      match e
      case Execute(params, accepted) => ExecuteKeepsValid(t, params, accepted);
      case SetCancelFlag => FlagKeepsValid(t);
      case CancelFuture(b) => CancelFutureKeepsValid(p, t, b);
      case RunFuture => StartKeepsValid(p, t);
      case MarkInvoked => StartKeepsValid(p, t);
      case Publish(values) => PublishKeepsValid(t, values);
      case Return(r) => ReturnKeepsValid(t, r);
      case Settle => SetFutureKeepsValid(p, t);
      case Throw => ThrowKeepsValid(p, t);
      case HandleNext => HandleKeepsValid(t);
    }
  }

  /** Any sequence of events keeps the invariant. */
  lemma {:induction false} ReplayKeepsValid<P, Pr, R>(p: Protocol, t: Task<P, Pr, R>, events: seq<Event<P, Pr, R>>)
    requires Valid(t)
    ensures Valid(Replay(p, t, events))
    decreases |events|
  {
    if |events| > 0 {
      ApplyKeepsValid(p, t, events[0]);
      ReplayKeepsValid(p, Apply(p, t, events[0]).task, events[1..]);
    }
  }

  /** From construction, under either protocol: the worker only ever
      starts after executeOnExecutor has set RUNNING, run onPreExecute,
      stored the params and handed the future to an executor that accepted
      it. */
  lemma WorkerStartsAfterPreExecute<P, Pr, R>(p: Protocol, events: seq<Event<P, Pr, R>>)
    ensures var u := Replay(p, Init<P, Pr, R>(), events);
            !u.worker.Idle? ==>
              && u.submitted
              && !GetStatus(u).Pending?
              && u.params.Some?
              && OnPreExecute in u.hooks
  {
    InitValid<P, Pr, R>();
    ReplayKeepsValid(p, Init<P, Pr, R>(), events);
  }

  /** Status only moves forward, PENDING to RUNNING to FINISHED, over any
      sequence of events. */
  lemma {:induction false} StatusNeverRegresses<P, Pr, R>(p: Protocol, t: Task<P, Pr, R>, events: seq<Event<P, Pr, R>>)
    ensures t.status.Rank() <= Replay(p, t, events).status.Rank()
    decreases |events|
  {
    if |events| > 0 {
      StatusNeverRegresses(p, Apply(p, t, events[0]).task, events[1..]);
    }
  }

  /** Once cancelled, a task stays cancelled: nothing resets mCancelled. */
  lemma {:induction false} CancelIsSticky<P, Pr, R>(p: Protocol, t: Task<P, Pr, R>, events: seq<Event<P, Pr, R>>)
    requires IsCancelled(t)
    ensures IsCancelled(Replay(p, t, events))
    decreases |events|
  {
    if |events| > 0 {
      CancelIsSticky(p, Apply(p, t, events[0]).task, events[1..]);
    }
  }

  /** A second cancel leaves the task exactly as the first one did, and
      reports that it could not cancel. */
  lemma CancelIdempotent<P, Pr, R>(p: Protocol, t: Task<P, Pr, R>, first: bool, second: bool)
    ensures var once := Cancel(p, t, first).task;
            Cancel(p, once, second) == Step(once, Answer(false))
  {
  }

  /** After a call of executeOnExecutor that passed the status check,
      whatever happens next, every further call fails with "already
      running" or "already executed" and changes nothing. */
  lemma ExecuteSucceedsAtMostOnce<P, Pr, R>(
    p: Protocol, t: Task<P, Pr, R>, params: seq<P>, accepted: bool,
    events: seq<Event<P, Pr, R>>, params': seq<P>, accepted': bool)
    requires GetStatus(t).Pending?
    ensures var later := Replay(p, ExecuteOnExecutor(t, params, accepted).task, events);
            var again := ExecuteOnExecutor(later, params', accepted');
            && again.task == later
            && again.reply.Raise?
            && again.reply.fault in {AlreadyRunning, AlreadyExecuted}
  {
    StatusNeverRegresses(p, ExecuteOnExecutor(t, params, accepted).task, events);
  }

  /** A task with nothing left to happen: it has been executed, its
      future is settled, its worker has left FutureTask.run, every posted
      message is handled, and it is cancelled (so another cancel has no
      effect). */
  ghost predicate Quiescent<P, Pr, R>(t: Task<P, Pr, R>) {
    && !t.status.Pending?
    && t.cancelled
    && !t.future.New?
    && t.worker.Exited?
    && t.handled == |t.posted|
  }

  /** No sequence of events changes a quiescent task: nothing more is
      posted and no hook ever fires again. */
  lemma {:induction false} QuiescentStaysPut<P, Pr, R>(p: Protocol, t: Task<P, Pr, R>, events: seq<Event<P, Pr, R>>)
    requires Quiescent(t)
    ensures Replay(p, t, events) == t
    decreases |events|
  {
    if |events| > 0 {
      assert Apply(p, t, events[0]).task == t;
      QuiescentStaysPut(p, t, events[1..]);
    }
  }

  /** A task cancelled before it is ever executed goes straight from
      PENDING to FINISHED: cancel posts a null result, the handler delivers
      it to onCancelled without onPreExecute ever running, and a later
      execute is refused as already executed. */
  lemma CancelledBeforeExecuteFinishes<P, Pr, R>(p: Protocol, params: seq<P>, accepted: bool)
    ensures var u := Replay(p, Init<P, Pr, R>(), [SetCancelFlag, CancelFuture(false), HandleNext]);
            && GetStatus(u).Finished?
            && u.hooks == [OnCancelled(None)]
            && ExecuteOnExecutor(u, params, accepted) == Step(u, Raise(AlreadyExecuted))
  {
    CancelledBeforeExecuteRun<P, Pr, R>(p);
  }

  /** The state that cancel and one handled message leave a new task in. */
  lemma CancelledBeforeExecuteRun<P, Pr, R>(p: Protocol)
    ensures Replay(p, Init<P, Pr, R>(), [SetCancelFlag, CancelFuture(false), HandleNext])
            == Init().(cancelled := true, future := Cancelled, posted := [ResultMsg(None)], invoked := p.Claimed?,
                       handled := 1, status := Finished, hooks := [OnCancelled(None)])
  {
    var events: seq<Event<P, Pr, R>> := [SetCancelFlag, CancelFuture(false), HandleNext];
    var t1 := Init<P, Pr, R>().(cancelled := true);
    var t2 := t1.(future := Cancelled, posted := [ResultMsg(None)], invoked := p.Claimed?);
    var t3 := t2.(handled := 1, status := Finished, hooks := [OnCancelled(None)]);
    assert Apply(p, Init(), events[0]).task == t1;
    assert Apply(p, t1, events[1]).task == t2;
    assert Apply(p, t2, events[2]).task == t3;
    assert events[1..][1..][1..] == [];
  }

  /** The state of a task the executor rejected: RUNNING, never handed off,
      its worker never started, and it leaves RUNNING only if cancelled. */
  ghost predicate Stranded<P, Pr, R>(t: Task<P, Pr, R>) {
    && Valid(t)
    && !t.submitted
    && t.worker.Idle?
    && !t.status.Pending?
  }

  lemma {:induction false} StrandedStaysStranded<P, Pr, R>(p: Protocol, t: Task<P, Pr, R>, events: seq<Event<P, Pr, R>>)
    requires Stranded(t)
    ensures Stranded(Replay(p, t, events))
    decreases |events|
  {
    if |events| > 0 {
      var e := events[0];
      var u := Apply(p, t, e).task;
      ApplyKeepsValid(p, t, e);
      StatusNeverRegresses(p, t, [e]);
      assert Replay(p, t, [e]) == u;
      StrandedStaysStranded(p, u, events[1..]);
    }
  }

  /** When the executor rejects the hand-off, the task is left RUNNING: the
      rejection is reported, doInBackground never runs, every later execute
      fails, and the task only reaches FINISHED if it is cancelled. */
  lemma RejectedTaskIsStranded<P, Pr, R>(p: Protocol, t: Task<P, Pr, R>, params: seq<P>, events: seq<Event<P, Pr, R>>)
    requires Valid(t) && GetStatus(t).Pending?
    ensures ExecuteOnExecutor(t, params, false).reply == Raise(Rejected)
    ensures GetStatus(ExecuteOnExecutor(t, params, false).task).Running?
    ensures var later := Replay(p, ExecuteOnExecutor(t, params, false).task, events);
            && later.worker.Idle?
            && !later.submitted
            && (GetStatus(later).Running? || IsCancelled(later))
            && ExecuteOnExecutor(later, params, true).reply.Raise?
  {
    var s := ExecuteOnExecutor(t, params, false).task;
    ExecuteKeepsValid(t, params, false);
    assert Stranded(s);
    StrandedStaysStranded(p, s, events);
    var later := Replay(p, s, events);
    if later.status.Finished? {
      CountIfPrefix(later.posted, later.handled, IsResult);
      assert !later.future.New?;
    }
  }
}

=== FILE: serial_executor.dfy ===
/** AsyncTask.SerialExecutor: a FIFO deque of wrapped runnables plus one
    active slot, in front of the shared thread pool.

    `execute(r)` appends a wrapper to the tail and, if nothing is active,
    calls `scheduleNext`; `scheduleNext` polls the head into `mActive` and
    hands it to the pool; each wrapper calls `scheduleNext` in its `finally`
    block once `r` has run. Both are synchronized, so each is one step here.
    The pool is an accept-or-reject sink: `pool` records what it accepted,
    `completed` how many of those wrappers have finished running. */
module SerialExecutor {
  import opened Wrappers

  datatype Lane<W> = Lane(
    tasks: seq<W>,      // mTasks, head first
    active: Option<W>,  // mActive
    pool: seq<W>,       // wrappers THREAD_POOL_EXECUTOR accepted, in hand-off order
    completed: nat)     // how many of them have run their finally block

  /** The lane's state after a call, and whether the pool's rejection
      propagated out of it. */
  datatype Step<W> = Step(lane: Lane<W>, rejected: bool)

  datatype Event<W> =
    | Submit(item: W, accept: bool)  // execute(item); `accept`: the pool's answer if a hand-off happens
    | Completion(accept: bool)       // the running wrapper's finally block

  function Empty<W>(): Lane<W> {
    Lane([], None, [], 0)
  }

  /** A wrapper was handed to the pool and has not finished. */
  predicate InFlight<W>(l: Lane<W>) {
    |l.pool| > l.completed
  }

  /** The active wrapper the pool rejected: it is never run, so its finally
      block never schedules the next one. */
  function Stalled<W>(l: Lane<W>): seq<W> {
    if l.active.Some? && !InFlight(l) then [l.active.value] else []
  }

  /** scheduleNext(): polls the head of the deque into mActive (null when
      the deque is empty) and hands it to the pool. A rejection propagates,
      with mActive already set. */
  function ScheduleNext<W>(l: Lane<W>, accept: bool): (s: Step<W>)
    ensures |l.tasks| == 0 ==> s == Step(l.(active := None), false)
    ensures |l.tasks| > 0 ==>
              && s.lane.active == Some(l.tasks[0])
              && s.lane.tasks == l.tasks[1..]
              && s.lane.pool == l.pool + (if accept then [l.tasks[0]] else [])
              && s.lane.completed == l.completed
              && s.rejected == !accept
  {
    if |l.tasks| == 0 then Step(l.(active := None), false)
    else
      var head := l.tasks[0];
      var polled := l.(tasks := l.tasks[1..], active := Some(head));
      if accept then Step(polled.(pool := polled.pool + [head]), false)
      else Step(polled, true)
  }

  /** execute(r): appends to the tail; schedules only when nothing is active. */
  function Execute<W>(l: Lane<W>, item: W, accept: bool): (s: Step<W>)
    ensures l.active.Some? ==> s == Step(l.(tasks := l.tasks + [item]), false)
    ensures l.active.None? && |l.tasks| == 0 ==>
              && s.lane.active == Some(item)
              && s.lane.tasks == []
              && s.lane.pool == l.pool + (if accept then [item] else [])
              && s.lane.completed == l.completed
              && s.rejected == !accept
  {
    var offered := l.(tasks := l.tasks + [item]);
    if l.active.None? then ScheduleNext(offered, accept) else Step(offered, false)
  }

  /** The running wrapper's `finally`: it has completed, and the next one is
      scheduled. */
  function Complete<W>(l: Lane<W>, accept: bool): (s: Step<W>)
    requires InFlight(l)
    ensures s.lane.completed == l.completed + 1
    ensures s.lane.tasks == (if |l.tasks| > 0 then l.tasks[1..] else [])
    ensures s.lane.active == (if |l.tasks| > 0 then Some(l.tasks[0]) else None)
    ensures s.lane.pool == l.pool + (if |l.tasks| > 0 && accept then [l.tasks[0]] else [])
    ensures s.rejected <==> |l.tasks| > 0 && !accept
  {
    ScheduleNext(l.(completed := l.completed + 1), accept)
  }

  /** One event; a completion with nothing in flight cannot happen. */
  function Apply<W>(l: Lane<W>, e: Event<W>): Step<W> {
    match e
    case Submit(item, accept) => Execute(l, item, accept)
    case Completion(accept) => if InFlight(l) then Complete(l, accept) else Step(l, false)
  }

  function Replay<W>(l: Lane<W>, events: seq<Event<W>>): Lane<W>
    decreases |events|
  {
    if |events| == 0 then l else Replay(Apply(l, events[0]).lane, events[1..])
  }

  /** The items submitted by `events`, in submission order. */
  function Submitted<W>(events: seq<Event<W>>): (items: seq<W>)
    ensures |items| <= |events|
  {
    if |events| == 0 then []
    else (if events[0].Submit? then [events[0].item] else []) + Submitted(events[1..])
  }

  /** At most one wrapper is in the pool at a time, and it is mActive; work
      never waits in the deque while nothing is active. */
  ghost predicate Valid<W>(l: Lane<W>) {
    && l.completed <= |l.pool| <= l.completed + 1
    && (InFlight(l) ==> l.active == Some(l.pool[|l.pool| - 1]))
    && (|l.tasks| > 0 ==> l.active.Some?)
  }

  /** Every submission or completion keeps the invariant, and keeps every
      submitted item in order: handed to the pool, then the stalled one if
      any, then the deque. */
  lemma ApplyKeepsValid<W>(l: Lane<W>, e: Event<W>)
    requires Valid(l)
    ensures Valid(Apply(l, e).lane)
    ensures var u := Apply(l, e).lane;
            u.pool + Stalled(u) + u.tasks
              == l.pool + Stalled(l) + l.tasks + (if e.Submit? then [e.item] else [])
  {
  }

  /** Over any sequence of events the invariant holds, and the items are
      never reordered or lost. */
  lemma {:induction false} ReplayKeepsOrder<W>(l: Lane<W>, events: seq<Event<W>>)
    requires Valid(l)
    ensures Valid(Replay(l, events))
    ensures var u := Replay(l, events);
            u.pool + Stalled(u) + u.tasks == l.pool + Stalled(l) + l.tasks + Submitted(events)
    decreases |events|
  {
    if |events| > 0 {
      var e := events[0];
      ApplyKeepsValid(l, e);
      ReplayKeepsOrder(Apply(l, e).lane, events[1..]);
    }
  }

  lemma HeadIsPrefix<W>(whole: seq<W>, a: seq<W>, b: seq<W>, c: seq<W>)
    requires whole == a + b + c
    ensures a <= whole
  {
    assert whole == a + (b + c);
  }

  /** From an empty executor: the pool receives the submitted items in
      submission order (a prefix of them), and at most one is running at a
      time, namely mActive. */
  lemma PoolFollowsSubmissionOrder<W>(events: seq<Event<W>>)
    ensures var u := Replay(Empty<W>(), events);
            && u.pool <= Submitted(events)
            && |u.pool| - u.completed <= 1
            && (InFlight(u) ==> u.active == Some(u.pool[|u.pool| - 1]))
  {
    var e := Empty<W>();
    ReplayKeepsOrder(e, events);
    var u := Replay(e, events);
    assert e.pool + Stalled(e) + e.tasks + Submitted(events) == Submitted(events);
    HeadIsPrefix(Submitted(events), u.pool, Stalled(u), u.tasks);
  }

  /** If the pool rejects the hand-off, mActive holds a wrapper that never
      runs: whatever is submitted or completed afterwards, nothing else ever
      reaches the pool. */
  lemma {:induction false} RejectedHandOffStallsLane<W>(l: Lane<W>, events: seq<Event<W>>)
    requires Valid(l) && l.active.Some? && !InFlight(l)
    ensures var u := Replay(l, events);
            && u.pool == l.pool
            && u.active == l.active
            && u.tasks == l.tasks + Submitted(events)
    decreases |events|
  {
    if |events| > 0 {
      var u := Apply(l, events[0]).lane;
      ApplyKeepsValid(l, events[0]);
      assert u.pool == l.pool && u.active == l.active;
      RejectedHandOffStallsLane(u, events[1..]);
    }
  }

  /** The lane after `n` completions, each hand-off accepted. */
  function CompleteAll<W>(l: Lane<W>, n: nat): Lane<W>
    decreases n
  {
    if n == 0 then l else CompleteAll(Apply(l, Completion(true)).lane, n - 1)
  }

  /** The lane never starves its deque: when the pool accepts every
      hand-off, one completion per queued item (plus the running one) hands
      every queued item to the pool, in order, and leaves the lane idle. */
  lemma {:induction false} CompletionsDrainLane<W>(l: Lane<W>)
    requires Valid(l) && (l.active.Some? ==> InFlight(l))
    ensures var u := CompleteAll(l, |l.tasks| + (if InFlight(l) then 1 else 0));
            && u.pool == l.pool + l.tasks
            && u.active.None?
            && u.tasks == []
            && !InFlight(u)
    decreases |l.tasks|
  {
    if InFlight(l) {
      var next := Apply(l, Completion(true)).lane;
      ApplyKeepsValid(l, Completion(true));
      if |l.tasks| == 0 {
        assert next.pool == l.pool;
      } else {
        assert next.pool == l.pool + [l.tasks[0]];
        assert next.tasks == l.tasks[1..];
        CompletionsDrainLane(next);
        assert l.pool + l.tasks == next.pool + next.tasks;
      }
    } else {
      assert l.tasks == [];
    }
  }
}

=== FILE: task_state.dfy ===
/** The state of one AsyncTask as an immutable record.

    The Java object is shared between the owning (UI) thread, the worker
    thread that runs `mFuture`, and any thread that calls `cancel`. Here every
    field the protocol reads or writes is a field of `Task`, and everything the
    owning thread observes is recorded in two logs: the messages sent to the
    handler (`posted`, with the read cursor `handled`) and the hooks the
    handler invoked (`hooks`). */
module TaskState {
  import opened Wrappers
  import opened Counting

  /** AsyncTask.Status. The status is only ever written forward. A task
      cancelled before it is executed goes from PENDING straight to
      FINISHED, and when two results are posted FINISHED is written twice. */
  datatype Status = Pending | Running | Finished {
    /** Position in the lifecycle order PENDING < RUNNING < FINISHED. */
    function Rank(): nat {
      match this
      case Pending => 0
      case Running => 1
      case Finished => 2
    }
  }

  /** The state of `mFuture`, a FutureTask, as far as AsyncTask can observe it
      through `cancel` and `get`. It leaves `New` exactly once. */
  datatype FutureState<R> =
    | New                   // not yet completed (possibly running)
    | Completed(value: R)   // the worker's call() returned this value
    | Failed                // the worker's call() threw
    | Cancelled             // cancel() won before completion

  /** Where the worker thread is inside FutureTask.run and `mWorker.call`. */
  datatype WorkerPhase<R> =
    | Idle               // the executor has not run `mFuture` yet
    | Entered            // FutureTask.run has entered `call`, `mTaskInvoked` not yet set
    | Computing          // `mTaskInvoked` is set and doInBackground is running
    | Returned(value: R) // `call` posted `value` and returned it; FutureTask has not yet recorded it
    | Exited             // run has returned, with or without calling doInBackground

  /** A message sent to the owning thread's handler: MESSAGE_POST_PROGRESS
      carries the published values, MESSAGE_POST_RESULT the one result
      (`None` is a null result). */
  datatype Message<Pr, R> =
    | ProgressMsg(values: seq<Pr>)
    | ResultMsg(result: Option<R>)

  /** An invocation of one of the task's overridable hooks on the owning thread. */
  datatype Hook<Pr, R> =
    | OnPreExecute
    | OnProgressUpdate(values: seq<Pr>)
    | OnPostExecute(result: Option<R>)
    | OnCancelled(result: Option<R>)

  /** The exceptions the protocol raises. */
  datatype Fault =
    | AlreadyRunning     // IllegalStateException: execute while RUNNING
    | AlreadyExecuted    // IllegalStateException: execute while FINISHED
    | Rejected           // the executor refused `mFuture`
    | ComputationFailed  // done() rethrows doInBackground's exception

  datatype Task<P, Pr, R> = Task(
    status: Status,                // mStatus
    cancelled: bool,               // mCancelled
    invoked: bool,                 // mTaskInvoked
    params: Option<seq<P>>,        // mWorker.mParams
    submitted: bool,               // exec.execute(mFuture) returned normally
    future: FutureState<R>,        // mFuture
    worker: WorkerPhase<R>,        // the thread running mFuture
    posted: seq<Message<Pr, R>>,   // every message sent to the handler, in send order
    handled: nat,                  // how many of them handleMessage has processed
    hooks: seq<Hook<Pr, R>>)       // hooks invoked on the owning thread, in order

  /** A freshly constructed task. */
  function Init<P, Pr, R>(): Task<P, Pr, R> {
    Task(Pending, false, false, None, false, New, Idle, [], 0, [])
  }

  predicate IsResult<Pr, R>(m: Message<Pr, R>) { m.ResultMsg? }

  predicate IsProgress<Pr, R>(m: Message<Pr, R>) { m.ProgressMsg? }

  /** A hook that ends the task: onPostExecute or onCancelled. */
  predicate IsTerminal<Pr, R>(h: Hook<Pr, R>) { h.OnPostExecute? || h.OnCancelled? }

  predicate IsPostExecute<Pr, R>(h: Hook<Pr, R>) { h.OnPostExecute? }

  predicate IsOnCancelled<Pr, R>(h: Hook<Pr, R>) { h.OnCancelled? }

  /** The hooks fired by handleMessage, that is, all but onPreExecute. */
  function Deliveries<Pr, R>(hs: seq<Hook<Pr, R>>): (ds: seq<Hook<Pr, R>>)
    ensures |ds| <= |hs|
  {
    if |hs| == 0 then []
    else Deliveries(hs[..|hs| - 1]) + (if hs[|hs| - 1].OnPreExecute? then [] else [hs[|hs| - 1]])
  }

  lemma DeliveriesAppend<Pr, R>(hs: seq<Hook<Pr, R>>, h: Hook<Pr, R>)
    ensures Deliveries(hs + [h]) == Deliveries(hs) + (if h.OnPreExecute? then [] else [h])
  {
    assert (hs + [h])[..|hs|] == hs;
  }

  /** Hook `h` is a correct delivery of message `m`: progress goes to
      onProgressUpdate with the same values, a result to onPostExecute or
      onCancelled with the same value. */
  ghost predicate Delivers<Pr, R>(m: Message<Pr, R>, h: Hook<Pr, R>) {
    match m
    case ProgressMsg(v) => h == OnProgressUpdate(v)
    case ResultMsg(r) => h == OnPostExecute(r) || h == OnCancelled(r)
  }

  /** How the status, the flags and the worker's phase relate. */
  ghost predicate PhasesAgree<P, Pr, R>(t: Task<P, Pr, R>) {
    // only execute submits, and it leaves PENDING
    && (t.status.Pending? ==> !t.submitted)
    // the worker starts only after the hand-off, which follows onPreExecute and the params
    && (!t.worker.Idle? ==> t.submitted)
    && (t.submitted ==> t.params.Some? && OnPreExecute in t.hooks)
    // doInBackground only runs, and call only returns, after mTaskInvoked is set
    && (t.worker.Computing? ==> t.invoked)
    && (t.worker.Returned? ==> t.invoked)
    && (t.worker.Idle? && t.future.New? ==> !t.invoked)
    // before the worker starts, only cancel can complete the future
    && (t.worker.Idle? && !t.future.New? ==> t.future.Cancelled? && t.cancelled)
  }

  /** Who may have posted a result, and what handling results did. */
  ghost predicate ResultsAgree<P, Pr, R>(t: Task<P, Pr, R>)
    requires t.handled <= |t.posted|
  {
    // while the future is open, only a call that has returned has posted a result
    && (t.future.New? ==> CountIf(t.posted, IsResult) == (if t.worker.Returned? then 1 else 0))
    && (t.future.Failed? ==> CountIf(t.posted, IsResult) == 0 && t.worker.Exited?)
    // FINISHED exactly when a result was handled, and one terminal hook per handled result
    && (t.status.Finished? <==> CountIf(t.posted[..t.handled], IsResult) > 0)
    && CountIf(t.hooks, IsTerminal) == CountIf(t.posted[..t.handled], IsResult)
  }

  /** The handled messages were delivered in send order, each to its hook. */
  ghost predicate HandledInOrder<P, Pr, R>(t: Task<P, Pr, R>)
    requires t.handled <= |t.posted|
  {
    && |Deliveries(t.hooks)| == t.handled
    && (forall i | 0 <= i < t.handled :: Delivers(t.posted[i], Deliveries(t.hooks)[i]))
  }

  /** The facts every reachable task state satisfies, whichever way the
      result-posting race is resolved. */
  ghost predicate Valid<P, Pr, R>(t: Task<P, Pr, R>) {
    && t.handled <= |t.posted|
    && PhasesAgree(t)
    && ResultsAgree(t)
    && HandledInOrder(t)
  }
}

=== FILE: wrappers.dfy ===
/** An optional value, standing for a Java reference that may be null. */
module Wrappers {

  /** A value that may be absent; `None` stands for Java's `null`. */
  datatype Option<+T> = None | Some(value: T)
}
